=== FILE: README.md ===
# CRM daily briefing pipeline — a Dafny model

This project models the core of a CRM intelligence job. Every day it does the following:

- It reads the sync watermark and fetches the records of four CRM modules changed since then.
- It upserts them into database tables and logs the sync.
- It builds an analytics payload.
- It asks a language model for a briefing.
- It splits the briefing into a dashboard report and a WhatsApp report. The dashboard report is saved, keyed by date. The WhatsApp report is cleaned of stray tags, capped, and sent.

The model is pure: each operation is a function of its inputs. A whole run is a function from the outside world (`Pipeline.Env`) and the database (`Pipeline.Db`) to a `Pipeline.Run`. A run is the ordered list of effects the job performs, the database it leaves behind, and how it ended.

Modules:

- `Wrappers`: `Option` and `Result`.
- `Text`: the Python string primitives the splitter uses:
  - `str.strip()` over the `str.isspace()` character set;
  - `str.replace(tag, '')` and `re.sub` of an alternation of literals, both as one left-to-right deletion scan;
  - the case-insensitive tag search of `re.IGNORECASE`, which also folds U+017F into `s`.
- `Report`: the report splitter, sanitiser and WhatsApp cap of `run_daily_pipeline`.
- `Records`: JSON values, Python truthiness, and the record-to-row normaliser of `upsert_module_data`.
- `Stores`: the database tables as values:
  - CRM tables keyed by id, with upsert semantics;
  - the append-only sync log and its watermark;
  - the briefing log, unique by report date.
- `Payload`: `build_ai_payload`, including the `f"₹{v:,}"` thousands formatting.
- `Pipeline`: `run_daily_pipeline` as an effect trace.

The clocks, the CRM API, the analytics RPC, the summariser and the WhatsApp client are parameters held in `Pipeline.Env`.

Some behaviours of the code are easy to miss, and the model keeps each of them:

- **Missing closing tag.** The code has no fallback for a half-open section: a section is found only as a full opening-and-closing tag pair.
  - Without a dashboard pair, the dashboard report is the whole summary with the exact-case dashboard tags removed. See `Report.DashboardReport`.
  - Without a WhatsApp pair, the WhatsApp text is the dashboard report verbatim. See `Report.WhatsAppDraft`.
- **Stray-tag clean-up.** The code's `re.sub` has no flags, so it removes only exact-case tags.
  - It is also a single pass, so it can leave a complete tag behind. See `Report.SanitiseCanLeaveTag`.
- **The WhatsApp cap.** The code keeps up to 1500 characters and then appends a 45-character notice, so a capped text can reach 1545 characters. See `Report.CapExceedsBudget`.
  - With no newline in the first 1500 characters, or only one at index 0, the code cuts mid-line at 1500.
  - 1545 still fits the 1600-character transport ceiling the code comment names. See `Report.CapFitsTwilio`.
- **Unconvertible amounts.** `float()` raises on a value it cannot convert. The exception escapes `upsert_module_data` and ends the run before the sync is logged; the modules upserted before it stay written. See `Stores.UpsertModuleData`, `Pipeline.CrashLeavesNoSyncLog` and `Pipeline.AbortKeepsEarlierWrites`.
- **Anomaly list.** The payload always carries one constant informational string; the code computes no anomalies.

## Model

| member | source | states |
|---|---|---|
| Text.Strip | jobs/run_daily_sync.py:84 | `strip()` returns the slice of the text whose outside is all whitespace and whose first and last characters are not whitespace |
| Text.StripIdempotent | jobs/run_daily_sync.py:84-88 | stripping an already stripped report again changes nothing, so for a tagged section with no stray tag inside, the second `strip()` at line 88 is a no-op |
| Text.DeleteAllIdentity | jobs/run_daily_sync.py:88 | the tag deletion leaves a text unchanged exactly when no tag occurs in it |
| Text.DeleteAllOnlyDeletes | jobs/run_daily_sync.py:88 | the deletion only removes tag occurrences; every other character survives, in order |
| Text.DeleteAllAtLeftmost | jobs/run_daily_sync.py:84 | the text before the leftmost occurrence is kept verbatim, that occurrence is removed, and the scan resumes after it |
| Text.FindTag | jobs/run_daily_sync.py:81-82 | the search returns the leftmost position at or after the start where the tag matches ignoring case, and `None` when there is none |
| Report.Extract | jobs/run_daily_sync.py:81-85 | a tag pair is found exactly when some opening tag is followed by a closing tag; the group is then the stripped text between the first opening tag and the first closing tag after it |
| Report.ExtractNoneIffNoMatch | jobs/run_daily_sync.py:81-82 | `Extract` finds nothing exactly when the pattern `OPEN\s*(.*?)\s*CLOSE` has no match anywhere |
| Report.ExtractIsSearchGroup | jobs/run_daily_sync.py:81-84 | for the match `re.search` reports (leftmost start, shortest lazy group), `Extract` returns its group stripped |
| Report.DashboardReport | jobs/run_daily_sync.py:84 | the dashboard report is the stripped first tagged section; without a tag pair it is the summary with the exact-case dashboard tags deleted, stripped; it never has surrounding whitespace |
| Report.WhatsAppDraft | jobs/run_daily_sync.py:85 | the WhatsApp text is the stripped first WhatsApp section; without one it falls back to the dashboard report verbatim |
| Report.Sanitise | jobs/run_daily_sync.py:88 | a text with no stray tag is only stripped, and sanitising never lengthens a text |
| Report.SanitiseDeletes | jobs/run_daily_sync.py:88 | sanitising deletes occurrences of the four tags only and then strips; the text changes before the strip exactly when a tag occurs in it |
| Report.SanitiseAtLeftmost | jobs/run_daily_sync.py:88 | the deletion is one left-to-right pass: the text before the leftmost tag is kept, that tag is removed and the scan resumes after it |
| Report.SanitiseCanLeaveTag | jobs/run_daily_sync.py:88 | `<` + `<WHATSAPP_REPORT>` + `WHATSAPP_REPORT>` sanitises to `<WHATSAPP_REPORT>`: the one-pass clean-up can leave a whole tag |
| Report.LastIndexOf | jobs/run_daily_sync.py:99 | `rfind` returns an index holding the character with no later occurrence, or -1 when it does not occur |
| Report.CapWhatsApp | jobs/run_daily_sync.py:95-101 | a text within 1500 characters is unchanged; a longer one is cut before its last newline among the first 1500 characters (at 1500 when that newline is absent or first) and gets the notice |
| Report.CapCutsAt | jobs/run_daily_sync.py:96-101 | the cut point is determined by the text: any point meeting the cut rule is the one the cap uses |
| Report.CapExceedsBudget | jobs/run_daily_sync.py:95-101 | a 1501-character line without newlines caps to 1545 characters, over the 1500 budget |
| Report.SplitReport | jobs/run_daily_sync.py:81-101 | the briefs are the dashboard report and the capped WhatsApp report, at most 1545 characters: the sanitised draft itself when that fits the budget, and otherwise its prefix up to the cut followed by the truncation notice |
| Records.ParseModule | services/database_client.py:62-82 | a module name selects the module of that name, and an unknown name selects none |
| Records.OwnerOf | services/database_client.py:51-52 | the owner is the `name` of an `Owner` object, and `'Unassigned'` when `Owner` is absent or not an object or has no `name` |
| Records.ToAmount | services/database_client.py:66 | `float(x or 0)`: a falsy value gives 0, a number itself, `True` 1; it fails exactly on truthy strings, lists and objects |
| Records.AmountField | services/database_client.py:66-72 | `float(rec.get(key, 0) or 0)`: an absent field reads as 0, a present one converts as `float(x or 0)` does |
| Records.DetailOf | services/database_client.py:62-82 | each module's columns come from its own fields with the source's defaults, the Leads revenue and the Deals amount being the converted field; only those two can fail, exactly when their conversion fails, and with that conversion's error |
| Records.DetailReadsOnly | services/database_client.py:62-82 | two records that agree on the module's source fields get the same columns, whatever else they carry |
| Records.DetailDefaults | services/database_client.py:62-82 | a record without any of its module's source fields converts, with `Unknown`/`New Lead` texts, amount 0 and no closing date |
| Records.BuildRow | services/database_client.py:48-84 | a row carries the record's id, owner, timestamps, the whole record as raw data, and its module columns; it fails exactly when the columns fail, with their error |
| Records.Kept | services/database_client.py:47-49 | the kept records are exactly the input records with a truthy `id` |
| Records.KeptAppend | services/database_client.py:47-49 | keeping distributes over concatenation, so kept records stay in input order |
| Records.NormaliseBatch | services/database_client.py:44-84 | the batch succeeds exactly when every kept record converts; its rows are then the kept records' rows in order, and a failure carries the error of a kept record |
| Records.NormaliseBatchFirstError | services/database_client.py:47-72 | a failed batch carries the error of the FIRST kept record, in input order, whose conversion fails; every kept record before it converts |
| Stores.UpsertIsOverride | services/database_client.py:86-87 | upserting a batch overrides the table with the batch's own id-to-row table |
| Stores.UpsertKeepsOthers | services/database_client.py:87 | ids the batch does not carry keep their presence and their row |
| Stores.UpsertLastWins | services/database_client.py:87 | the row stored for an id is the batch's last row with that id |
| Stores.UpsertIdempotent | services/database_client.py:87 | writing the same batch twice leaves the table as writing it once |
| Stores.WriteRows | services/database_client.py:86-87 | one upsert call changes only its table, which becomes the old table overridden by the batch |
| Stores.UpsertModuleData | services/database_client.py:38-87 | nothing is written for an empty batch, an unknown module or a batch without ids; the call fails exactly when a kept record fails to convert; the error is the batch normalisation's; otherwise the module's table is overridden by the batch's rows |
| Stores.UpsertRaisesFirstError | services/database_client.py:47-72 | the error `upsert_module_data` raises is the one of the first kept record whose amount `float()` refuses |
| Stores.LogSync | services/database_client.py:89-94 | logging appends one successful entry with the time and count and changes no earlier entry |
| Stores.LastSyncTime | services/database_client.py:96-100 | the watermark is the time of the successful entry with the highest id, and `None` exactly when there is no successful entry |
| Stores.WatermarkAdvances | services/database_client.py:89-100 | right after a sync is logged, even with zero records, the watermark is that sync's time |
| Stores.LogBriefing | services/database_client.py:170-176 | saving a briefing stores it under its date: when the date is already logged its row is overwritten in place and the log keeps its length and every row's date; a new date is appended at the end; rows of other dates stay as they were and dates stay unique |
| Stores.BriefingByDate | services/database_client.py:192-197 | a lookup finds content exactly when a row has that date, and the content is that row's |
| Stores.BriefingOverwrites | services/database_client.py:170-176 | after saving a day's briefing, looking that day up gives the new content |
| Stores.BriefingOthersUnchanged | services/database_client.py:170-197 | saving one date's briefing does not change what any other date looks up to |
| Stores.LatestAfterNewDate | services/database_client.py:170-183 | a briefing for a new date becomes the latest one |
| Stores.LatestAfterOverwrite | services/database_client.py:170-183 | overwriting an older date keeps the latest briefing as it was, because the upsert keeps the row's id |
| Stores.LatestAfterLog | services/database_client.py:170-183 | with unique dates, saving makes the new content the latest briefing exactly when its date is new or is the latest row's date; otherwise the latest briefing is unchanged |
| Stores.AllBriefingDates | services/database_client.py:185-190 | the dates come newest first and are exactly the log's dates, with multiplicity |
| Payload.ThousandsRoundTrip | jobs/run_daily_sync.py:25 | reading a `{n:,}` rendering back, commas removed, gives `n`, sign included |
| Payload.GroupShape | jobs/run_daily_sync.py:25 | a grouped numeral has a comma exactly at every fourth place from the right and digits elsewhere, with the matching length |
| Payload.RupeeAmount | jobs/run_daily_sync.py:25 | integers and booleans format as `₹` plus the grouped numeral; null, strings, lists and objects cannot be formatted |
| Payload.BuildAiPayload | jobs/run_daily_sync.py:9-35 | the payload is built exactly when the five required keys are present and the pipeline value is formattable; its fields are the analytics values, with `{}` defaults for the optional matrices and the one constant anomaly string; a formatting failure names the pipeline value itself |
| Payload.PipelineValueReadsBack | jobs/run_daily_sync.py:25 | the payload's pipeline value is `₹` followed by a grouped numeral that reads back as the analytics value |
| Payload.MissingKeyIsFirst | jobs/run_daily_sync.py:22-27 | a missing-key failure names a required key all of whose predecessors in reading order are present |
| Payload.EmptyAnalyticsFails | jobs/run_daily_sync.py:17-22 | the empty analytics result fails on the first required key, `new_leads_today` |
| Pipeline.WellPairedAt | jobs/run_daily_sync.py:54-59 | in a well-paired trace every upsert directly follows the fetch of its module and carries the size of that non-empty fetch, and every non-empty fetch is directly followed by its upsert |
| Pipeline.SyncModules | jobs/run_daily_sync.py:54-59 | the loop fetches the modules in order since one watermark, upserts exactly the non-empty results, and totals every fetched record; an upsert failure stops it after that module |
| Pipeline.SyncWritesFold | jobs/run_daily_sync.py:54-59 | the tables the loop leaves, and the error that stopped it, are those of `upsert_module_data` folded over the non-empty fetch results in order |
| Pipeline.ApplyStopsAt | jobs/run_daily_sync.py:54-59 | a fold that stopped on an error wrote every batch before the failing one, and the failing batch raised before writing |
| Pipeline.DispatchPhase | jobs/run_daily_sync.py:67-71 | the phase fails with no effects and no saved briefing exactly when the payload cannot be built, and then with the payload's own error; otherwise its first effect is the summariser's answer to the built payload, which it then delivers |
| Pipeline.Deliver | jobs/run_daily_sync.py:73-111 | a briefing is dispatched exactly when the summary is a non-empty text: the dashboard report is saved and then the split WhatsApp report is sent, and the delivery flag is the sender's answer for that text; otherwise only the summary request happened |
| Pipeline.RunDailyPipeline | jobs/run_daily_sync.py:37-111 | without a token nothing happens; with one the run first reads the watermark; the briefing log changes only in a dispatched run |
| Pipeline.RunWritesTables | jobs/run_daily_sync.py:49-59 | a run with a token leaves the tables of the fold over its non-empty fetches, and ends on a conversion error exactly when that fold does |
| Pipeline.AbortKeepsEarlierWrites | jobs/run_daily_sync.py:54-59 | a run an upsert aborted keeps everything the earlier modules wrote; the failing module wrote nothing |
| Pipeline.OtherTablesUntouched | jobs/run_daily_sync.py:54-59 | a run changes no table other than the four CRM tables |
| Pipeline.SyncPhaseOrder | jobs/run_daily_sync.py:49-59 | a run fetches Leads, Deals, Contacts, Accounts in order since the watermark read at its start (a prefix of them when an upsert raised), with upserts paired to non-empty fetches |
| Pipeline.SyncLoggedOnce | jobs/run_daily_sync.py:52-62 | unless an upsert raised, the run logs exactly one sync, carrying the records of all four fetches, and the watermark becomes that sync's time |
| Pipeline.CrashLeavesNoSyncLog | jobs/run_daily_sync.py:54-62 | a run that an upsert aborted logs no sync, saves and sends nothing, and leaves both logs as they were |
| Pipeline.DispatchOnSummary | jobs/run_daily_sync.py:67-105 | a dispatched run had a built payload and a non-empty answer to it, and ends by asking for that summary, saving its untruncated dashboard report and sending its capped WhatsApp report (at most 1545 characters), in that order |
| Pipeline.DispatchedExactly | jobs/run_daily_sync.py:44-105 | a run dispatches exactly when it has a token, every upsert goes through, the payload is built and the summariser answers it with a non-empty text |
| Pipeline.NoDispatchWithoutSummary | jobs/run_daily_sync.py:67-111 | without a summary the run ends with the request for the summary of the built payload; nothing is saved or sent and the briefing log is unchanged |

## Left out

- Records.ToAmount: refuses every truthy string, although Python's `float()` accepts numeric strings such as `"12.5"`. Fractional numbers are not modelled either: JSON numbers are integers here, because the model has no floating point.
- Payload.RupeeAmount: formats integers only. The fractional part of a float pipeline value is not modelled, for the same reason.
- Pipeline.SyncModules: a fetch is a total function of the token, module and watermark. `fetch_incremental_module` makes one request per module and returns its first page, and a non-200 status already comes back as no records, so the function covers those; the connection exceptions `requests` can raise are not modelled.
- Pipeline.RunDailyPipeline: database calls always succeed. A Supabase or network error from `log_sync`, `log_ai_briefing` or the analytics RPC is not modelled. A failing WhatsApp send is only the `delivered` flag.
- `get_access_token`, `fetch_incremental_module`, `get_advanced_analytics`, `get_executive_summary` and `send_whatsapp_message` are parameters in `Pipeline.Env`. Their own logic is not part of this model.
- The SQL behind the analytics RPC is not modelled: it lives in the database, not in this code.
- The three `datetime.now()` readings are parameters: the sync time, the payload date and the briefing date. Their formatting is not modelled.
- `print` output and the `json.dumps` of the payload are not modelled; they are logging only.
- Stores.UpsertRows: a batch with one id twice is written with the last row winning. PostgreSQL's `ON CONFLICT` refuses a batch that touches a row twice; that database error is not modelled.
- Stores.AllBriefingDates: orders dates by code point. For the `YYYY-MM-DD` dates the job writes, this is the database's order; collation rules are not modelled.
- The DNS patch `_bypass_isp_dns_block`, the client construction, `get_sync_history` and the dashboard RPC wrappers are not part of the pipeline.
- The dashboard app (`app.py`) and the prompt construction of the analyst agent are not modelled.

=== FILE: payload.dfy ===
/** `build_ai_payload` (jobs/run_daily_sync.py): the analytics record of the
    day is reshaped into the payload handed to the summariser. */
module Payload {
  import opened Wrappers
  import opened Records

  // ---------------------------------------------------------------------------
  // Decimal digits and thousands separators: f"{n:,}"
  // ---------------------------------------------------------------------------

  predicate IsDigit(c: char) {
    '0' <= c <= '9'
  }

  predicate AllDigits(s: string) {
    forall i :: 0 <= i < |s| ==> IsDigit(s[i])
  }

  function DigitChar(d: int): (c: char)
    requires 0 <= d < 10
    ensures IsDigit(c) && c as int - '0' as int == d
  {
    ('0' as int + d) as char
  }

  /** The decimal numeral of `n`, without leading zeros. */
  function Digits(n: nat): (r: string)
    ensures |r| >= 1 && AllDigits(r)
    ensures r[0] == '0' ==> n == 0
    decreases n
  {
    if n < 10 then [DigitChar(n)]
    else
      var r := Digits(n / 10) + [DigitChar(n % 10)];
      assert r[0] == Digits(n / 10)[0];
      r
  }

  /** The value of a decimal numeral. */
  function DigitsValue(s: string): nat
    requires AllDigits(s)
    decreases |s|
  {
    if s == [] then 0
    else DigitsValue(s[..|s| - 1]) * 10 + (s[|s| - 1] as int - '0' as int)
  }

  /** Reading back a numeral gives the number. */
  lemma {:induction false} DigitsRoundTrip(n: nat)
    ensures DigitsValue(Digits(n)) == n
    decreases n
  {
    if n >= 10 {
      var s := Digits(n);
      assert s[..|s| - 1] == Digits(n / 10);
      DigitsRoundTrip(n / 10);
    }
  }

  /** Commas between groups of three digits, counted from the right. */
  function Group(ds: string): (r: string)
    decreases |ds|
  {
    if |ds| <= 3 then ds
    else Group(ds[..|ds| - 3]) + [','] + ds[|ds| - 3..]
  }

  /** The text with its commas removed. */
  function Ungroup(s: string): (r: string)
    ensures |r| <= |s|
    decreases |s|
  {
    if s == [] then []
    else if s[|s| - 1] == ',' then Ungroup(s[..|s| - 1])
    else Ungroup(s[..|s| - 1]) + [s[|s| - 1]]
  }

  lemma {:induction false} UngroupAppend(a: string, b: string)
    ensures Ungroup(a + b) == Ungroup(a) + Ungroup(b)
    decreases |b|
  {
    if b == [] {
      assert a + b == a;
    } else {
      var b' := b[..|b| - 1];
      assert (a + b)[..|a + b| - 1] == a + b';
      UngroupAppend(a, b');
    }
  }

  lemma {:induction false} UngroupDigits(ds: string)
    requires AllDigits(ds)
    ensures Ungroup(ds) == ds
    decreases |ds|
  {
    if ds != [] {
      UngroupDigits(ds[..|ds| - 1]);
    }
  }

  /** Removing the separators gives back the digits. */
  lemma {:induction false} GroupRoundTrip(ds: string)
    requires AllDigits(ds)
    ensures Ungroup(Group(ds)) == ds
    decreases |ds|
  {
    if |ds| <= 3 {
      UngroupDigits(ds);
    } else {
      var head, tail := ds[..|ds| - 3], ds[|ds| - 3..];
      GroupRoundTrip(head);
      UngroupAppend(Group(head) + [','], tail);
      UngroupAppend(Group(head), [',']);
      UngroupDigits(tail);
      assert ds == head + tail;
    }
  }

  /** Position `i` of a grouped numeral: a comma exactly at every fourth
      place from the right, a digit everywhere else. */
  predicate GroupedAt(r: string, i: int)
    requires 0 <= i < |r|
  {
    (r[i] == ',' <==> (|r| - i) % 4 == 0) && (r[i] != ',' ==> IsDigit(r[i]))
  }

  /** The separators sit exactly at every fourth place from the right, and
      everything else is a digit. */
  lemma {:induction false} GroupShape(ds: string)
    requires |ds| >= 1 && AllDigits(ds)
    ensures |Group(ds)| == |ds| + (|ds| - 1) / 3
    ensures forall i :: 0 <= i < |Group(ds)| ==> GroupedAt(Group(ds), i)
    decreases |ds|
  {
    if |ds| > 3 {
      var head, tail := ds[..|ds| - 3], ds[|ds| - 3..];
      GroupShape(head);
      var g := Group(head);
      assert Group(ds) == g + [','] + tail;
      forall i | 0 <= i < |g| + 4
        ensures GroupedAt(g + [','] + tail, i)
      {
        GroupStep(g, tail, i);
      }
    } else {
      forall i | 0 <= i < |ds|
        ensures GroupedAt(ds, i)
      {
        assert IsDigit(ds[i]);
      }
    }
  }

  /** One more group of three digits keeps every position well placed. */
  lemma GroupStep(g: string, tail: string, i: int)
    requires |tail| == 3 && AllDigits(tail)
    requires forall j :: 0 <= j < |g| ==> GroupedAt(g, j)
    requires 0 <= i < |g| + 4
    ensures GroupedAt(g + [','] + tail, i)
  {
    var r := g + [','] + tail;
    if i < |g| {
      assert GroupedAt(g, i);
      assert r[i] == g[i];
      assert |r| - i == (|g| - i) + 4;
    } else if i > |g| {
      assert r[i] == tail[i - |g| - 1];
    }
  }

  /** `format(n, ',')` for an integer. */
  function Thousands(n: int): (r: string)
    ensures |r| >= 1
    ensures r[0] == '-' <==> n < 0
  {
    if n < 0 then "-" + Group(Digits(-n))
    else
      GroupShape(Digits(n));
      assert GroupedAt(Group(Digits(n)), 0);
      Group(Digits(n))
  }

  /** The integer a `format(n, ',')` text stands for. */
  function ThousandsValue(s: string): int
    requires AllDigits(Ungroup(if s != [] && s[0] == '-' then s[1..] else s))
  {
    if s != [] && s[0] == '-' then -(DigitsValue(Ungroup(s[1..])) as int) else DigitsValue(Ungroup(s))
  }

  /** The formatted amount reads back as the amount. */
  lemma ThousandsRoundTrip(n: int)
    ensures var s := Thousands(n);
      && AllDigits(Ungroup(if s != [] && s[0] == '-' then s[1..] else s))
      && ThousandsValue(s) == n
  {
    var m: nat := if n < 0 then -n else n;
    GroupRoundTrip(Digits(m));
    DigitsRoundTrip(m);
    if n < 0 {
      assert Thousands(n)[1..] == Group(Digits(m));
    }
  }

  // ---------------------------------------------------------------------------
  // The payload
  // ---------------------------------------------------------------------------

  const Rupee := '₹'

  /** The one anomaly the payload ever reports. */
  const InitialAnomaly := "Historical database initialized. Incremental syncs logic tracking active."

  datatype DailyMetrics = DailyMetrics(
    newLeadsYesterday: Json,
    sevenDayLeadAverage: Json,
    percentChangeLeads: Json,
    pipelineValue: string)

  datatype AiPayload = AiPayload(
    reportDate: string,
    dailyMetrics: DailyMetrics,
    pipelineFunnel: Json,
    sourceBreakdown: Json,
    sourceQualityMatrix: Json,
    repPipelineMatrix: Json,
    anomaliesDetectedByMath: seq<string>)

  /** Why the payload could not be built: a required analytics key is
      missing (`KeyError`), or the pipeline value cannot take a thousands
      separator (`TypeError`/`ValueError`). */
  datatype PayloadError = MissingKey(key: string) | NotFormattable(value: Json)

  /** The keys read with `analytics[...]`, in evaluation order. */
  const RequiredKeys := ["new_leads_today", "seven_day_avg", "percent_change_leads", "pipeline_value", "pipeline_statuses"]

  /** `f"₹{v:,}"`: integers and booleans (as 0 and 1) are formatted; null,
      strings, arrays and objects are refused. */
  function RupeeAmount(v: Json): (r: Result<string, PayloadError>)
    ensures r.Ok? <==> v.JNum? || v.JBool?
    ensures v.JNum? ==> r == Ok([Rupee] + Thousands(v.n))
    ensures v.JBool? ==> r == Ok([Rupee] + (if v.b then "1" else "0"))
    ensures r.Err? ==> r.error == NotFormattable(v)
  {
    match v
    case JNum(n) => Ok([Rupee] + Thousands(n))
    case JBool(b) => Ok([Rupee] + if b then "1" else "0")
    case _ => Err(NotFormattable(v))
  }

  /** `analytics[key]`. */
  function Required(analytics: Record, key: string): (r: Result<Json, PayloadError>)
    ensures r.Ok? <==> key in analytics
    ensures r.Ok? ==> r.value == analytics[key]
    ensures r.Err? ==> r.error == MissingKey(key)
  {
    if key in analytics then Ok(analytics[key]) else Err(MissingKey(key))
  }

  /** `build_ai_payload()` on `today` with the analytics of that day. */
  function BuildAiPayload(today: string, analytics: Record): (r: Result<AiPayload, PayloadError>)
    ensures r.Ok? <==>
      (forall k :: k in RequiredKeys ==> k in analytics) && RupeeAmount(analytics["pipeline_value"]).Ok?
    ensures r.Ok? ==> r.value.reportDate == today && r.value.anomaliesDetectedByMath == [InitialAnomaly]
    ensures r.Ok? ==> r.value.dailyMetrics == DailyMetrics(
      analytics["new_leads_today"], analytics["seven_day_avg"], analytics["percent_change_leads"],
      RupeeAmount(analytics["pipeline_value"]).value)
    ensures r.Ok? ==> r.value.pipelineFunnel == analytics["pipeline_statuses"]
    ensures r.Ok? ==> (
      && r.value.sourceBreakdown == GetOr(analytics, "source_breakdown", JObj(map[]))
      && r.value.sourceQualityMatrix == GetOr(analytics, "source_quality_matrix", JObj(map[]))
      && r.value.repPipelineMatrix == GetOr(analytics, "rep_pipeline_matrix", JObj(map[])))
    ensures r.Err? && r.error.MissingKey? ==> r.error.key in RequiredKeys && r.error.key !in analytics
    ensures r.Err? && r.error.NotFormattable? ==>
      ("pipeline_value" in analytics && r.error == NotFormattable(analytics["pipeline_value"]))
    ensures "new_leads_today" !in analytics ==> r == Err(MissingKey("new_leads_today"))
  {
    var newLeads :- Required(analytics, "new_leads_today");
    var average :- Required(analytics, "seven_day_avg");
    var change :- Required(analytics, "percent_change_leads");
    var value :- Required(analytics, "pipeline_value");
    var pipelineValue :- RupeeAmount(value);
    var funnel :- Required(analytics, "pipeline_statuses");
    Ok(AiPayload(
      today,
      DailyMetrics(newLeads, average, change, pipelineValue),
      funnel,
      GetOr(analytics, "source_breakdown", JObj(map[])),
      GetOr(analytics, "source_quality_matrix", JObj(map[])),
      GetOr(analytics, "rep_pipeline_matrix", JObj(map[])),
      [InitialAnomaly]))
  }

  /** The formatted pipeline value reads back, after the rupee sign, as the
      analytics value it was built from (a boolean as 0 or 1). */
  lemma PipelineValueReadsBack(today: string, analytics: Record)
    requires BuildAiPayload(today, analytics).Ok?
    ensures var v, s := analytics["pipeline_value"], BuildAiPayload(today, analytics).value.dailyMetrics.pipelineValue;
      && |s| >= 2 && s[0] == Rupee
      && var t := s[1..];
        && AllDigits(Ungroup(if t != [] && t[0] == '-' then t[1..] else t))
        && ThousandsValue(t) == (if v.JNum? then v.n else if v.JBool? && v.b then 1 else 0)
  {
    var v := analytics["pipeline_value"];
    var n := if v.JNum? then v.n else if v.JBool? && v.b then 1 else 0;
    assert v.JBool? ==> [Rupee] + (if v.b then "1" else "0") == [Rupee] + Thousands(n);
    ThousandsRoundTrip(n);
    assert ([Rupee] + Thousands(n))[1..] == Thousands(n);
  }

  /** A missing key is reported in reading order: every required key read
      before it is present. */
  lemma MissingKeyIsFirst(today: string, analytics: Record, key: string)
    requires BuildAiPayload(today, analytics) == Err(MissingKey(key))
    ensures exists i :: (0 <= i < |RequiredKeys| && RequiredKeys[i] == key
      && forall j :: 0 <= j < i ==> RequiredKeys[j] in analytics)
  {
    var i := if "new_leads_today" !in analytics then 0
      else if "seven_day_avg" !in analytics then 1
      else if "percent_change_leads" !in analytics then 2
      else if "pipeline_value" !in analytics then 3
      else 4;
    assert RequiredKeys[i] == key;
  }

  /** The analytics call yields `{}` when it returns nothing; the payload then
      fails on its first required key. */
  lemma EmptyAnalyticsFails(today: string)
    ensures BuildAiPayload(today, map[]) == Err(MissingKey("new_leads_today"))
  {
  }
}

=== FILE: pipeline.dfy ===
/** `run_daily_pipeline` (jobs/run_daily_sync.py) as a function from the
    outside world and the database to the effects it performs, in order, and
    the database it leaves behind. */
module Pipeline {
  import opened Wrappers
  import opened Records
  import opened Stores
  import opened Payload
  import opened Report

  /** The tables the pipeline touches. */
  datatype Db = Db(tables: Tables, syncLog: SyncLog, briefings: BriefingLog)

  /** Everything one run takes from outside: the CRM token (`None` when
      authentication fails) and incremental fetch, the clock readings of
      `log_sync`, `build_ai_payload` and `log_ai_briefing`, the analytics
      call, the summariser and the WhatsApp send. */
  datatype Env = Env(
    token: Option<string>,
    fetch: (string, Module, Option<string>) -> seq<Record>,
    syncTime: string,
    payloadDate: string,
    analytics: string -> Record,
    summarise: AiPayload -> Option<string>,
    briefingDate: string,
    send: string -> bool)

  /** What the pipeline does that can be observed, in order. */
  datatype Effect =
    | WatermarkRead(watermark: Option<string>)
    | Fetch(crmModule: Module, since: Option<string>)
    | Upsert(crmModule: Module, count: nat)
    | SyncLogged(recordsFetched: int)
    | Summarised(summary: Option<string>)
    | BriefingLogged(date: string, content: string)
    | Sent(text: string, delivered: bool)

  /** How a run ends. A conversion or payload error is an exception that
      escapes the pipeline. */
  datatype Outcome =
    | AuthFailed
    | ConversionFailed(conversion: ConversionError)
    | PayloadFailed(payload: PayloadError)
    | NoSummary
    | Dispatched(delivered: bool)

  datatype Run = Run(trace: seq<Effect>, db: Db, outcome: Outcome)

  /** The modules in the order they are synchronised. */
  const SyncOrder := [Leads, Deals, Contacts, Accounts]

  /** `if not token`: a missing or empty token stops the pipeline. */
  predicate TokenOk(token: Option<string>) {
    token.Some? && token.value != ""
  }

  /** Python truthiness of the summariser's answer. */
  predicate SummaryOk(summary: Option<string>) {
    summary.Some? && summary.value != ""
  }

  // ---------------------------------------------------------------------------
  // Trace vocabulary
  // ---------------------------------------------------------------------------

  /** The fetch effects of a trace, in order. */
  function Fetches(trace: seq<Effect>): seq<Effect>
    decreases |trace|
  {
    if trace == [] then []
    else (if trace[0].Fetch? then [trace[0]] else []) + Fetches(trace[1..])
  }

  lemma {:induction false} FetchesAppend(a: seq<Effect>, b: seq<Effect>)
    ensures Fetches(a + b) == Fetches(a) + Fetches(b)
    decreases |a|
  {
    if a == [] {
      assert a + b == b;
    } else {
      assert (a + b)[0] == a[0] && (a + b)[1..] == a[1..] + b;
      FetchesAppend(a[1..], b);
    }
  }

  lemma {:induction false} NoFetches(t: seq<Effect>)
    requires forall i :: 0 <= i < |t| ==> !t[i].Fetch?
    ensures Fetches(t) == []
    decreases |t|
  {
    if t != [] {
      NoFetches(t[1..]);
    }
  }

  /** The number of sync-log writes in a trace. */
  function SyncLogCount(trace: seq<Effect>): (n: nat)
    ensures n == 0 <==> forall i :: 0 <= i < |trace| ==> !trace[i].SyncLogged?
    decreases |trace|
  {
    if trace == [] then 0
    else (if trace[0].SyncLogged? then 1 else 0) + SyncLogCount(trace[1..])
  }

  lemma {:induction false} SyncLogCountAppend(a: seq<Effect>, b: seq<Effect>)
    ensures SyncLogCount(a + b) == SyncLogCount(a) + SyncLogCount(b)
    decreases |a|
  {
    if a == [] {
      assert a + b == b;
    } else {
      assert (a + b)[0] == a[0] && (a + b)[1..] == a[1..] + b;
      SyncLogCountAppend(a[1..], b);
    }
  }

  /** One fetch per module, all with the same watermark. */
  function FetchPlan(modules: seq<Module>, since: Option<string>): (r: seq<Effect>)
    ensures |r| == |modules|
    ensures forall i :: 0 <= i < |modules| ==> r[i] == Fetch(modules[i], since)
    decreases |modules|
  {
    if modules == [] then [] else [Fetch(modules[0], since)] + FetchPlan(modules[1..], since)
  }

  predicate IsPrefix<T(==)>(a: seq<T>, b: seq<T>) {
    |a| <= |b| && b[..|a|] == a
  }

  /** The upsert discipline, read left to right: a fetch that returned
      records is immediately followed by the upsert of that module with that
      many records, an empty fetch by no upsert, and no upsert appears
      anywhere else. */
  predicate WellPaired(fetch: (string, Module, Option<string>) -> seq<Record>, token: string, trace: seq<Effect>)
    decreases |trace|
  {
    if trace == [] then true
    else match trace[0]
      case Fetch(m, since) =>
        var n := |fetch(token, m, since)|;
        if n == 0 then WellPaired(fetch, token, trace[1..])
        else |trace| >= 2 && trace[1] == Upsert(m, n) && WellPaired(fetch, token, trace[2..])
      case Upsert(_, _) => false
      case _ => WellPaired(fetch, token, trace[1..])
  }

  /** What `WellPaired` says about each position: an upsert comes right after
      the fetch of its module and carries the size of that fetch's non-empty
      result; a non-empty fetch is followed by its upsert. */
  lemma {:induction false} WellPairedAt(fetch: (string, Module, Option<string>) -> seq<Record>, token: string,
                                        trace: seq<Effect>, i: int)
    requires WellPaired(fetch, token, trace) && 0 <= i < |trace|
    ensures trace[i].Upsert? ==>
      && 0 < i && trace[i - 1].Fetch? && trace[i - 1].crmModule == trace[i].crmModule
      && trace[i].count == |fetch(token, trace[i].crmModule, trace[i - 1].since)| > 0
    ensures trace[i].Fetch? && fetch(token, trace[i].crmModule, trace[i].since) != [] ==>
      i + 1 < |trace| && trace[i + 1] == Upsert(trace[i].crmModule, |fetch(token, trace[i].crmModule, trace[i].since)|)
    decreases |trace|
  {
    if trace[0].Fetch? && |fetch(token, trace[0].crmModule, trace[0].since)| > 0 {
      if i >= 2 {
        WellPairedAt(fetch, token, trace[2..], i - 2);
        assert trace[i] == trace[2..][i - 2];
        if i >= 3 {
          assert trace[i - 1] == trace[2..][i - 3];
        } else {
          assert !trace[2..][0].Upsert?;
        }
      }
    } else if i >= 1 {
      WellPairedAt(fetch, token, trace[1..], i - 1);
      assert trace[i] == trace[1..][i - 1];
      if i >= 2 {
        assert trace[i - 1] == trace[1..][i - 2];
      } else {
        assert !trace[1..][0].Upsert?;
      }
    }
  }

  /** Effects other than fetches and upserts do not disturb the pairing. */
  lemma {:induction false} WellPairedFramed(fetch: (string, Module, Option<string>) -> seq<Record>, token: string,
                                            pre: seq<Effect>, t: seq<Effect>, post: seq<Effect>)
    requires forall i :: 0 <= i < |pre| ==> !pre[i].Fetch? && !pre[i].Upsert?
    requires forall i :: 0 <= i < |post| ==> !post[i].Fetch? && !post[i].Upsert?
    requires WellPaired(fetch, token, t)
    ensures WellPaired(fetch, token, pre + t + post)
    decreases |pre|
  {
    if pre == [] {
      assert pre + t + post == t + post;
      WellPairedSuffix(fetch, token, t, post);
    } else {
      assert (pre + t + post)[1..] == pre[1..] + t + post;
      WellPairedFramed(fetch, token, pre[1..], t, post);
    }
  }

  lemma {:induction false} WellPairedSuffix(fetch: (string, Module, Option<string>) -> seq<Record>, token: string,
                                            t: seq<Effect>, post: seq<Effect>)
    requires forall i :: 0 <= i < |post| ==> !post[i].Fetch? && !post[i].Upsert?
    requires WellPaired(fetch, token, t)
    ensures WellPaired(fetch, token, t + post)
    decreases |t| + |post|
  {
    if t == [] {
      assert t + post == post;
      if post != [] {
        WellPairedSuffix(fetch, token, [], post[1..]);
        assert [] + post[1..] == post[1..];
      }
    } else if t[0].Fetch? && |fetch(token, t[0].crmModule, t[0].since)| > 0 {
      assert (t + post)[1] == t[1] && (t + post)[2..] == t[2..] + post;
      WellPairedSuffix(fetch, token, t[2..], post);
    } else {
      assert (t + post)[1..] == t[1..] + post;
      WellPairedSuffix(fetch, token, t[1..], post);
    }
  }

  /** Reference count: the records all the fetches of `modules` return. */
  function TotalFetched(fetch: (string, Module, Option<string>) -> seq<Record>, token: string,
                        modules: seq<Module>, since: Option<string>): nat
    decreases |modules|
  {
    if modules == [] then 0 else |fetch(token, modules[0], since)| + TotalFetched(fetch, token, modules[1..], since)
  }

  /** One module's non-empty fetch result, as handed to the upsert. */
  datatype Fetched = Fetched(crmModule: Module, records: seq<Record>)

  /** Reference sequence: the non-empty fetch results of `modules`, in order. */
  function NonEmptyFetches(fetch: (string, Module, Option<string>) -> seq<Record>, token: string,
                           modules: seq<Module>, since: Option<string>): (r: seq<Fetched>)
    ensures forall i :: 0 <= i < |r| ==> r[i].records != [] && r[i].crmModule in modules
    decreases |modules|
  {
    if modules == [] then []
    else
      var records := fetch(token, modules[0], since);
      (if records == [] then [] else [Fetched(modules[0], records)]) + NonEmptyFetches(fetch, token, modules[1..], since)
  }

  /** The tables after writing a sequence of batches, and the conversion error
      that stopped the writing, if any. */
  datatype Applied = Applied(tables: Tables, failure: Option<ConversionError>)

  /** One write of a batch: it raises, or it yields the new tables. */
  type Step = (Tables, Fetched) -> Result<Tables, ConversionError>

  /** The write the pipeline performs: `upsert_module_data(module, records)`. */
  function UpsertStep(tables: Tables, b: Fetched): Result<Tables, ConversionError> {
    UpsertModuleData(tables, ModuleName(b.crmModule), b.records)
  }

  /** Reference fold: `step` on each batch in turn; the first batch that
      raises ends the fold, with the tables as the batches before it left
      them. */
  function ApplyBatches(step: Step, tables: Tables, batches: seq<Fetched>): Applied
    decreases |batches|
  {
    if batches == [] then Applied(tables, None)
    else match step(tables, batches[0])
      case Err(e) => Applied(tables, Some(e))
      case Ok(t) => ApplyBatches(step, t, batches[1..])
  }

  /** The batch a fold stopped at: the failing one, or `|batches|` when none
      failed. */
  function StopAt(step: Step, tables: Tables, batches: seq<Fetched>): (k: nat)
    ensures k <= |batches|
    ensures k == |batches| <==> ApplyBatches(step, tables, batches).failure.None?
    decreases |batches|
  {
    if batches == [] then 0
    else
      var u := step(tables, batches[0]);
      if u.Err? then 0 else StopAt(step, u.value, batches[1..]) + 1
  }

  /** The fold of `batches` failed with `a`'s error at batch `k`: the
      batches before it were all written, leaving `a`'s tables, and batch `k`
      raised on those tables before writing. */
  predicate StoppedAt(step: Step, tables: Tables, batches: seq<Fetched>, k: nat, a: Applied)
    requires a.failure.Some?
  {
    && k < |batches|
    && ApplyBatches(step, tables, batches[..k]) == Applied(a.tables, None)
    && step(a.tables, batches[k]) == Err(a.failure.value)
  }

  /** A fold that stopped on an error stopped at batch `StopAt`. */
  lemma {:induction false} ApplyStopsAt(step: Step, tables: Tables, batches: seq<Fetched>)
    ensures ApplyBatches(step, tables, batches).failure.Some? ==>
      StoppedAt(step, tables, batches, StopAt(step, tables, batches), ApplyBatches(step, tables, batches))
    decreases |batches|
  {
    if batches != [] {
      var u := step(tables, batches[0]);
      if u.Err? {
        assert batches[..0] == [];
      } else {
        ApplyStopsAt(step, u.value, batches[1..]);
        var a := ApplyBatches(step, u.value, batches[1..]);
        if a.failure.Some? {
          StopStep(step, tables, batches, u.value, StopAt(step, u.value, batches[1..]), a);
        }
      }
    }
  }

  /** A batch written in front moves the failing batch one place on. */
  lemma StopStep(step: Step, tables: Tables, batches: seq<Fetched>, t: Tables, k: nat, a: Applied)
    requires batches != [] && a.failure.Some?
    requires step(tables, batches[0]) == Ok(t)
    requires StoppedAt(step, t, batches[1..], k, a)
    ensures StoppedAt(step, tables, batches, k + 1, a)
  {
    PrefixCons(batches, k);
    ApplyCons(step, tables, batches[0], batches[1..][..k]);
  }

  lemma PrefixCons<T>(s: seq<T>, k: nat)
    requires k < |s|
    ensures s[..k + 1] == [s[0]] + s[1..][..k]
  {
  }

  /** The fold's first step on a batch put in front. */
  lemma ApplyCons(step: Step, tables: Tables, b: Fetched, later: seq<Fetched>)
    ensures var u := step(tables, b);
      ApplyBatches(step, tables, [b] + later) ==
        if u.Err? then Applied(tables, Some(u.error)) else ApplyBatches(step, u.value, later)
  {
    assert ([b] + later)[0] == b && ([b] + later)[1..] == later;
  }

  /** A table no batch is routed to keeps its contents through the upserts. */
  lemma {:induction false} ApplyFrame(tables: Tables, batches: seq<Fetched>, name: string)
    requires forall i :: 0 <= i < |batches| ==> TableName(batches[i].crmModule) != name
    ensures var t := ApplyBatches(UpsertStep, tables, batches).tables;
      (name in t <==> name in tables) && TableOf(t, name) == TableOf(tables, name)
    decreases |batches|
  {
    if batches != [] {
      var b := batches[0];
      NamesRoundTrip(b.crmModule);
      match UpsertStep(tables, b)
      case Err(e) =>
      case Ok(t) =>
        assert TableName(b.crmModule) != name;
        assert name in t <==> name in tables;
        assert TableOf(t, name) == TableOf(tables, name);
        assert forall i :: 0 <= i < |batches[1..]| ==> batches[1..][i] == batches[i + 1];
        ApplyFrame(t, batches[1..], name);
    }
  }

  // ---------------------------------------------------------------------------
  // The sync loop
  // ---------------------------------------------------------------------------

  /** Where the sync loop stands: what it did, the tables, the running total,
      and the conversion error that aborted it, if any. */
  datatype SyncState = SyncState(trace: seq<Effect>, tables: Tables, total: nat, failure: Option<ConversionError>)

  /** What the sync loop over `modules` guarantees of its state: the
      fetches are the plan in order (a prefix of it when an upsert aborted the
      loop, which then ends with that upsert), the total is every fetched
      record, the upserts pair with the non-empty fetches, and nothing but
      fetches and upserts happened. */
  predicate SyncFacts(env: Env, token: string, since: Option<string>, modules: seq<Module>, r: SyncState) {
    PlanFacts(env, token, since, modules, r) && TraceFacts(env, token, r.trace)
  }

  predicate PlanFacts(env: Env, token: string, since: Option<string>, modules: seq<Module>, r: SyncState) {
    && (r.failure.None? ==> Fetches(r.trace) == FetchPlan(modules, since))
    && (r.failure.None? ==> r.total == TotalFetched(env.fetch, token, modules, since))
    && (r.failure.Some? ==> Fetches(r.trace) != [] && IsPrefix(Fetches(r.trace), FetchPlan(modules, since)))
    && (r.failure.Some? ==> r.trace != [] && r.trace[|r.trace| - 1].Upsert?)
  }

  predicate TraceFacts(env: Env, token: string, trace: seq<Effect>) {
    WellPaired(env.fetch, token, trace) && SyncEffects(trace)
  }

  /** The loop over `modules`: fetch each one since the watermark; upsert a
      non-empty result and add its size to the total. */
  function SyncModules(env: Env, token: string, since: Option<string>, modules: seq<Module>, tables: Tables): (r: SyncState)
    ensures SyncFacts(env, token, since, modules, r)
    decreases |modules|
  {
    if modules == [] then SyncState([], tables, 0, None)
    else
      var m := modules[0];
      var records := env.fetch(token, m, since);
      if records == [] then
        var rest := SyncModules(env, token, since, modules[1..], tables);
        var head := [Fetch(m, since)];
        SkipPlan(env, token, since, modules, rest);
        ShiftTrace(env, token, head, rest.trace);
        SyncState(head + rest.trace, rest.tables, rest.total, rest.failure)
      else
        var head := [Fetch(m, since), Upsert(m, |records|)];
        match UpsertModuleData(tables, ModuleName(m), records)
        case Err(e) =>
          FailPlan(env, token, since, modules, tables, e);
          ShiftTrace(env, token, head, []);
          assert head + [] == head;
          SyncState(head, tables, |records|, Some(e))
        case Ok(tables') =>
          var rest := SyncModules(env, token, since, modules[1..], tables');
          UpsertPlan(env, token, since, modules, rest);
          ShiftTrace(env, token, head, rest.trace);
          SyncState(head + rest.trace, rest.tables, |records| + rest.total, rest.failure)
  }

  /** What the loop leaves in the tables is the reference fold over the
      non-empty fetches: every batch before the one that raised is written,
      and nothing after it. */
  lemma {:induction false} SyncWritesFold(env: Env, token: string, since: Option<string>, modules: seq<Module>, tables: Tables)
    ensures var r := SyncModules(env, token, since, modules, tables);
      Applied(r.tables, r.failure) == ApplyBatches(UpsertStep, tables, NonEmptyFetches(env.fetch, token, modules, since))
    decreases |modules|
  {
    if modules != [] {
      var m := modules[0];
      var records := env.fetch(token, m, since);
      var later := NonEmptyFetches(env.fetch, token, modules[1..], since);
      if records == [] {
        SyncWritesFold(env, token, since, modules[1..], tables);
        assert NonEmptyFetches(env.fetch, token, modules, since) == later;
      } else {
        assert NonEmptyFetches(env.fetch, token, modules, since) == [Fetched(m, records)] + later;
        ApplyCons(UpsertStep, tables, Fetched(m, records), later);
        var u := UpsertModuleData(tables, ModuleName(m), records);
        if u.Ok? {
          SyncWritesFold(env, token, since, modules[1..], u.value);
        }
      }
    }
  }


  /** A module whose fetch came back empty adds its fetch and nothing else. */
  lemma SkipPlan(env: Env, token: string, since: Option<string>, modules: seq<Module>, rest: SyncState)
    requires modules != [] && env.fetch(token, modules[0], since) == []
    requires PlanFacts(env, token, since, modules[1..], rest)
    ensures PlanFacts(env, token, since, modules,
      SyncState([Fetch(modules[0], since)] + rest.trace, rest.tables, rest.total, rest.failure))
  {
    var head := [Fetch(modules[0], since)];
    FetchesAppend(head, rest.trace);
    assert FetchPlan(modules, since) == head + FetchPlan(modules[1..], since);
  }

  /** A module whose upsert raised ends the loop after its fetch and upsert. */
  lemma FailPlan(env: Env, token: string, since: Option<string>, modules: seq<Module>, tables: Tables, e: ConversionError)
    requires modules != [] && env.fetch(token, modules[0], since) != []
    ensures PlanFacts(env, token, since, modules,
      SyncState([Fetch(modules[0], since), Upsert(modules[0], |env.fetch(token, modules[0], since)|)],
                tables, |env.fetch(token, modules[0], since)|, Some(e)))
  {
    var head := [Fetch(modules[0], since), Upsert(modules[0], |env.fetch(token, modules[0], since)|)];
    FetchesAppend([head[0]], [head[1]]);
    assert head == [head[0]] + [head[1]];
  }

  /** A module whose upsert succeeded adds its fetch, its upsert and its
      count. */
  lemma UpsertPlan(env: Env, token: string, since: Option<string>, modules: seq<Module>, rest: SyncState)
    requires modules != [] && env.fetch(token, modules[0], since) != []
    requires PlanFacts(env, token, since, modules[1..], rest)
    ensures PlanFacts(env, token, since, modules,
      SyncState([Fetch(modules[0], since), Upsert(modules[0], |env.fetch(token, modules[0], since)|)] + rest.trace,
                rest.tables, |env.fetch(token, modules[0], since)| + rest.total, rest.failure))
  {
    var head := [Fetch(modules[0], since), Upsert(modules[0], |env.fetch(token, modules[0], since)|)];
    FetchesAppend([head[0]], [head[1]]);
    assert head == [head[0]] + [head[1]];
    FetchesAppend(head, rest.trace);
    assert FetchPlan(modules, since) == [head[0]] + FetchPlan(modules[1..], since);
  }

  /** Prepending one module's step keeps the trace facts. */
  lemma ShiftTrace(env: Env, token: string, head: seq<Effect>, rest: seq<Effect>)
    requires
      || (|head| == 1 && head[0].Fetch? && env.fetch(token, head[0].crmModule, head[0].since) == [])
      || (|head| == 2 && head[0].Fetch? && head[1] == Upsert(head[0].crmModule, |env.fetch(token, head[0].crmModule, head[0].since)|)
          && env.fetch(token, head[0].crmModule, head[0].since) != [])
    requires TraceFacts(env, token, rest)
    ensures TraceFacts(env, token, head + rest)
  {
    var t := head + rest;
    assert t[|head|..] == rest;
    forall i | 0 <= i < |t|
      ensures t[i].Fetch? || t[i].Upsert?
    {
      if i >= |head| {
        assert t[i] == rest[i - |head|];
      }
    }
  }

  // ---------------------------------------------------------------------------
  // The run
  // ---------------------------------------------------------------------------

  /** What happens after the sync is logged: the effects, the briefing log
      and how the run ends. */
  datatype Dispatch = Dispatch(effects: seq<Effect>, briefings: BriefingLog, outcome: Outcome)

  /** The effects the dispatch phase can have. */
  predicate DispatchEffect(e: Effect) {
    e.Summarised? || e.BriefingLogged? || e.Sent?
  }

  predicate AllDispatch(effects: seq<Effect>) {
    forall i :: 0 <= i < |effects| ==> DispatchEffect(effects[i])
  }

  /** Build the payload, ask for a summary and deliver it. */
  function DispatchPhase(env: Env, briefings: BriefingLog): (d: Dispatch)
    ensures d.outcome.PayloadFailed? <==> BuildAiPayload(env.payloadDate, env.analytics(env.payloadDate)).Err?
    ensures d.outcome.PayloadFailed? ==> d.effects == [] && d.briefings == briefings
    ensures d.outcome.PayloadFailed? ==>
      d.outcome.payload == BuildAiPayload(env.payloadDate, env.analytics(env.payloadDate)).error
    ensures d.outcome.PayloadFailed? || d.outcome.NoSummary? || d.outcome.Dispatched?
    ensures AllDispatch(d.effects)
    ensures !d.outcome.PayloadFailed? ==>
      && BuildAiPayload(env.payloadDate, env.analytics(env.payloadDate)).Ok?
      && |d.effects| > 0
      && d.effects[0] == Summarised(env.summarise(BuildAiPayload(env.payloadDate, env.analytics(env.payloadDate)).value))
      && d == Deliver(env, briefings, d.effects[0].summary)
  {
    match BuildAiPayload(env.payloadDate, env.analytics(env.payloadDate))
    case Err(e) => Dispatch([], briefings, PayloadFailed(e))
    case Ok(payload) =>
      DeliverQuiet(env, briefings, env.summarise(payload));
      Deliver(env, briefings, env.summarise(payload))
  }

  /** With the summariser's answer: when it is a non-empty text, save the
      dashboard report and send the capped WhatsApp report, in that order. */
  function Deliver(env: Env, briefings: BriefingLog, summary: Option<string>): (d: Dispatch)
    ensures d.outcome.NoSummary? || d.outcome.Dispatched?
    ensures d.outcome.Dispatched? <==> SummaryOk(summary)
    ensures d.effects != [] && d.effects[0] == Summarised(summary)
    ensures d.outcome.NoSummary? ==> d.effects == [Summarised(summary)] && d.briefings == briefings
    ensures d.outcome.Dispatched? ==>
      && |d.effects| == 3
      && d.effects[1] == BriefingLogged(env.briefingDate, SplitReport(summary.value).dashboard)
      && d.effects[2] == Sent(SplitReport(summary.value).whatsapp, d.outcome.delivered)
      && d.briefings == LogBriefing(briefings, env.briefingDate, SplitReport(summary.value).dashboard)
    ensures d.outcome.Dispatched? ==> d.outcome.delivered == env.send(SplitReport(summary.value).whatsapp)
  {
    if !SummaryOk(summary) then Dispatch([Summarised(summary)], briefings, NoSummary)
    else
      var briefs := SplitReport(summary.value);
      var delivered := env.send(briefs.whatsapp);
      Dispatch([Summarised(summary), BriefingLogged(env.briefingDate, briefs.dashboard), Sent(briefs.whatsapp, delivered)],
               LogBriefing(briefings, env.briefingDate, briefs.dashboard),
               Dispatched(delivered))
  }

  /** Delivering only asks, saves and sends. */
  lemma DeliverQuiet(env: Env, briefings: BriefingLog, summary: Option<string>)
    ensures AllDispatch(Deliver(env, briefings, summary).effects)
  {
    var d := Deliver(env, briefings, summary);
    forall i | 0 <= i < |d.effects|
      ensures DispatchEffect(d.effects[i])
    {
      assert i == 0 || i == 1 || i == 2;
    }
  }

  /** `run_daily_pipeline()` */
  function RunDailyPipeline(env: Env, db: Db): (r: Run)
    ensures !TokenOk(env.token) ==> r == Run([], db, AuthFailed)
    ensures TokenOk(env.token) ==> r.trace != [] && r.trace[0] == WatermarkRead(LastSyncTime(db.syncLog))
    ensures r.db.briefings != db.briefings ==> r.outcome.Dispatched?
  {
    if !TokenOk(env.token) then Run([], db, AuthFailed)
    else
      var since := LastSyncTime(db.syncLog);
      var sync := SyncModules(env, env.token.value, since, SyncOrder, db.tables);
      if sync.failure.Some? then Aborted(db, since, sync)
      else Completed(db, env.syncTime, since, sync, DispatchPhase(env, db.briefings))
  }

  /** The run when an upsert raised: the tables written so far stay written,
      and the exception ends the run. */
  function Aborted(db: Db, since: Option<string>, sync: SyncState): (r: Run)
    requires sync.failure.Some?
    ensures r.db.syncLog == db.syncLog && r.db.briefings == db.briefings
  {
    Run([WatermarkRead(since)] + sync.trace, db.(tables := sync.tables), ConversionFailed(sync.failure.value))
  }

  /** The run when the sync loop finished: the sync is logged with the
      total, then the dispatch phase follows. */
  function Completed(db: Db, syncTime: string, since: Option<string>, sync: SyncState, d: Dispatch): (r: Run)
    ensures r.db.briefings == d.briefings && r.outcome == d.outcome
  {
    Run([WatermarkRead(since)] + sync.trace + ([SyncLogged(sync.total)] + d.effects),
        Db(sync.tables, LogSync(db.syncLog, syncTime, sync.total), d.briefings),
        d.outcome)
  }

  /** Only fetches and upserts. */
  predicate SyncEffects(trace: seq<Effect>) {
    forall i :: 0 <= i < |trace| ==> trace[i].Fetch? || trace[i].Upsert?
  }

  /** The effects of an aborted run: the watermark read, then fetches and
      upserts only. */
  lemma AbortedTrace(db: Db, since: Option<string>, sync: SyncState)
    requires sync.failure.Some? && SyncEffects(sync.trace)
    ensures var t := Aborted(db, since, sync).trace;
      && SyncLogCount(t) == 0
      && forall i :: 0 <= i < |t| ==> t[i].WatermarkRead? || t[i].Fetch? || t[i].Upsert?
  {
    var t := Aborted(db, since, sync).trace;
    assert forall i :: 0 < i < |t| ==> t[i] == sync.trace[i - 1];
  }

  /** The sync phase inside a finished or aborted run. */
  lemma FramedSync(fetch: (string, Module, Option<string>) -> seq<Record>, token: string,
                   since: Option<string>, t: seq<Effect>, post: seq<Effect>)
    requires forall i :: 0 <= i < |post| ==> !post[i].Fetch? && !post[i].Upsert?
    requires WellPaired(fetch, token, t)
    ensures Fetches([WatermarkRead(since)] + t + post) == Fetches(t)
    ensures WellPaired(fetch, token, [WatermarkRead(since)] + t + post)
  {
    FramedFetches([WatermarkRead(since)], t, post);
    WellPairedFramed(fetch, token, [WatermarkRead(since)], t, post);
  }

  /** The effects after the sync loop of a finished run neither fetch nor
      upsert. */
  lemma CompletedQuiet(total: nat, effects: seq<Effect>)
    requires AllDispatch(effects)
    ensures forall i :: 0 <= i < |[SyncLogged(total)] + effects| ==>
      !([SyncLogged(total)] + effects)[i].Fetch? && !([SyncLogged(total)] + effects)[i].Upsert?
  {
    var post := [SyncLogged(total)] + effects;
    assert forall i :: 0 < i < |post| ==> post[i] == effects[i - 1];
  }

  /** The sync phase of a run with a token: the four modules are fetched in
      order, all since the watermark read at the start (only up to the module
      whose upsert raised, if one did), and upserts pair with the non-empty
      fetches. */
  lemma SyncPhaseOrder(env: Env, db: Db)
    requires TokenOk(env.token)
    ensures var r := RunDailyPipeline(env, db);
      var plan := FetchPlan(SyncOrder, LastSyncTime(db.syncLog));
      && (!r.outcome.ConversionFailed? ==> Fetches(r.trace) == plan)
      && (r.outcome.ConversionFailed? ==> Fetches(r.trace) != [] && IsPrefix(Fetches(r.trace), plan))
      && WellPaired(env.fetch, env.token.value, r.trace)
  {
    var since := LastSyncTime(db.syncLog);
    var sync := SyncModules(env, env.token.value, since, SyncOrder, db.tables);
    if sync.failure.Some? {
      assert [WatermarkRead(since)] + sync.trace + [] == [WatermarkRead(since)] + sync.trace;
      FramedSync(env.fetch, env.token.value, since, sync.trace, []);
    } else {
      var d := DispatchPhase(env, db.briefings);
      CompletedQuiet(sync.total, d.effects);
      FramedSync(env.fetch, env.token.value, since, sync.trace, [SyncLogged(sync.total)] + d.effects);
    }
  }

  /** Fetches framed by other effects are the fetches of the middle part. */
  lemma FramedFetches(pre: seq<Effect>, t: seq<Effect>, post: seq<Effect>)
    requires forall i :: 0 <= i < |pre| ==> !pre[i].Fetch?
    requires forall i :: 0 <= i < |post| ==> !post[i].Fetch?
    ensures Fetches(pre + t + post) == Fetches(t)
  {
    FetchesAppend(pre, t);
    FetchesAppend(pre + t, post);
    NoFetches(pre);
    NoFetches(post);
    assert [] + Fetches(t) + [] == Fetches(t);
  }

  /** A finished run logs exactly one sync, carrying the loop's total. */
  lemma CompletedSyncLog(db: Db, syncTime: string, since: Option<string>, sync: SyncState, d: Dispatch)
    requires SyncEffects(sync.trace) && AllDispatch(d.effects)
    ensures var r := Completed(db, syncTime, since, sync, d);
      && SyncLogCount(r.trace) == 1
      && SyncLogged(sync.total) in r.trace
      && r.db.syncLog == LogSync(db.syncLog, syncTime, sync.total)
  {
    OneSyncLog([WatermarkRead(since)] + sync.trace, sync.total, d.effects);
  }

  /** Unless an upsert raised, a run with a token logs exactly one sync,
      carrying the number of records all four fetches returned (zero
      included), and the watermark moves to that sync's time. */
  lemma SyncLoggedOnce(env: Env, db: Db)
    requires TokenOk(env.token)
    ensures var r := RunDailyPipeline(env, db);
      var total := TotalFetched(env.fetch, env.token.value, SyncOrder, LastSyncTime(db.syncLog));
      !r.outcome.ConversionFailed? ==>
        && SyncLogCount(r.trace) == 1
        && SyncLogged(total) in r.trace
        && r.db.syncLog == LogSync(db.syncLog, env.syncTime, total)
        && LastSyncTime(r.db.syncLog) == Some(env.syncTime)
  {
    var since := LastSyncTime(db.syncLog);
    var sync := SyncModules(env, env.token.value, since, SyncOrder, db.tables);
    if sync.failure.None? {
      var d := DispatchPhase(env, db.briefings);
      CompletedSyncLog(db, env.syncTime, since, sync, d);
      WatermarkAdvances(db.syncLog, env.syncTime, sync.total);
    }
  }

  /** A single sync-log write between traces that have none. */
  lemma OneSyncLog(pre: seq<Effect>, total: int, post: seq<Effect>)
    requires forall i :: 0 <= i < |pre| ==> !pre[i].SyncLogged?
    requires forall i :: 0 <= i < |post| ==> !post[i].SyncLogged?
    ensures SyncLogCount(pre + ([SyncLogged(total)] + post)) == 1
    ensures SyncLogged(total) in pre + ([SyncLogged(total)] + post)
  {
    SyncLogCountAppend(pre, [SyncLogged(total)] + post);
    SyncLogCountAppend([SyncLogged(total)], post);
    assert (pre + ([SyncLogged(total)] + post))[|pre|] == SyncLogged(total);
  }

  /** A run that an upsert aborted logs no sync: the sync log and the
      briefing log are as before, and nothing is saved or sent. */
  lemma CrashLeavesNoSyncLog(env: Env, db: Db)
    ensures var r := RunDailyPipeline(env, db);
      r.outcome.ConversionFailed? ==>
        && SyncLogCount(r.trace) == 0
        && r.db.syncLog == db.syncLog
        && r.db.briefings == db.briefings
        && forall i :: 0 <= i < |r.trace| ==> r.trace[i].WatermarkRead? || r.trace[i].Fetch? || r.trace[i].Upsert?
  {
    if TokenOk(env.token) {
      var since := LastSyncTime(db.syncLog);
      var sync := SyncModules(env, env.token.value, since, SyncOrder, db.tables);
      if sync.failure.Some? {
        AbortedTrace(db, since, sync);
      }
    }
  }

  /** The batches a run with a token hands to `upsert_module_data`. */
  function RunBatches(env: Env, db: Db): seq<Fetched>
    requires TokenOk(env.token)
  {
    NonEmptyFetches(env.fetch, env.token.value, SyncOrder, LastSyncTime(db.syncLog))
  }

  /** The tables a run with a token leaves are the reference fold over the
      non-empty fetches, and the run ends on a conversion error exactly when
      the fold does, with that error. */
  lemma RunWritesTables(env: Env, db: Db)
    requires TokenOk(env.token)
    ensures var r, a := RunDailyPipeline(env, db), ApplyBatches(UpsertStep, db.tables, RunBatches(env, db));
      && r.db.tables == a.tables
      && (r.outcome.ConversionFailed? <==> a.failure.Some?)
      && (r.outcome.ConversionFailed? ==> a.failure == Some(r.outcome.conversion))
  {
    SyncWritesFold(env, env.token.value, LastSyncTime(db.syncLog), SyncOrder, db.tables);
  }

  /** An upsert that raises does not undo the modules synchronised before it:
      the run leaves the tables as the batches before the failing one wrote
      them, and the failing batch raised before writing anything. */
  lemma AbortKeepsEarlierWrites(env: Env, db: Db)
    ensures var r := RunDailyPipeline(env, db);
      r.outcome.ConversionFailed? ==>
        && TokenOk(env.token)
        && ApplyBatches(UpsertStep, db.tables, RunBatches(env, db)).failure.Some?
        && var a := ApplyBatches(UpsertStep, db.tables, RunBatches(env, db));
          && a == Applied(r.db.tables, Some(r.outcome.conversion))
          && StoppedAt(UpsertStep, db.tables, RunBatches(env, db), StopAt(UpsertStep, db.tables, RunBatches(env, db)), a)
  {
    if TokenOk(env.token) {
      RunWritesTables(env, db);
      ApplyStopsAt(UpsertStep, db.tables, RunBatches(env, db));
    }
  }

  /** A run writes only the four CRM tables: any other table is as before. */
  lemma OtherTablesUntouched(env: Env, db: Db, name: string)
    requires forall m: Module :: TableName(m) != name
    ensures var t := RunDailyPipeline(env, db).db.tables;
      (name in t <==> name in db.tables) && TableOf(t, name) == TableOf(db.tables, name)
  {
    if TokenOk(env.token) {
      RunWritesTables(env, db);
      ApplyFrame(db.tables, RunBatches(env, db), name);
    }
  }

  /** The last three effects of a trace that ends with three given ones. */
  lemma LastThree(front: seq<Effect>, effects: seq<Effect>)
    requires |effects| == 3
    ensures var t := front + effects;
      |t| >= 3 && t[|t| - 3..] == effects
  {
  }

  /** How a dispatched run ends: the payload was built and the summariser
      answered it with a non-empty text; the run asked for that summary,
      saved its untruncated dashboard report and sent its capped WhatsApp
      report of at most 1545 characters, in that order and last of all; the
      briefing log holds the saved report. */
  predicate EndsDispatched(env: Env, briefings: BriefingLog, r: Run)
    requires r.outcome.Dispatched?
  {
    var p := BuildAiPayload(env.payloadDate, env.analytics(env.payloadDate));
    && p.Ok? && SummaryOk(env.summarise(p.value))
    && var summary := env.summarise(p.value).value;
      && |r.trace| >= 3
      && r.trace[|r.trace| - 3..] ==
         [Summarised(Some(summary)), BriefingLogged(env.briefingDate, DashboardReport(summary)),
          Sent(CapWhatsApp(Sanitise(WhatsAppDraft(summary))), r.outcome.delivered)]
      && |CapWhatsApp(Sanitise(WhatsAppDraft(summary)))| <= MaxWhatsAppChars + |TruncationNotice|
      && r.db.briefings == LogBriefing(briefings, env.briefingDate, DashboardReport(summary))
  }

  /** Every dispatched run ends as `EndsDispatched` describes. */
  lemma DispatchOnSummary(env: Env, db: Db)
    ensures var r := RunDailyPipeline(env, db);
      r.outcome.Dispatched? ==> EndsDispatched(env, db.briefings, r)
  {
    if TokenOk(env.token) {
      var since := LastSyncTime(db.syncLog);
      var sync := SyncModules(env, env.token.value, since, SyncOrder, db.tables);
      if sync.failure.None? {
        CompletedDispatched(env, db, since, sync);
      }
    }
  }

  /** The ending of a finished run whose dispatch phase dispatched. */
  lemma CompletedDispatched(env: Env, db: Db, since: Option<string>, sync: SyncState)
    ensures var r := Completed(db, env.syncTime, since, sync, DispatchPhase(env, db.briefings));
      r.outcome.Dispatched? ==> EndsDispatched(env, db.briefings, r)
  {
    var d := DispatchPhase(env, db.briefings);
    if d.outcome.Dispatched? {
      var front := [WatermarkRead(since)] + sync.trace + [SyncLogged(sync.total)];
      assert Completed(db, env.syncTime, since, sync, d).trace == front + d.effects;
      DispatchedEffects(env, db.briefings);
      LastThree(front, d.effects);
    }
  }

  /** A dispatch phase that dispatched asked for the summary of the built
      payload, saved its dashboard report and sent its capped WhatsApp
      report. */
  lemma DispatchedEffects(env: Env, briefings: BriefingLog)
    ensures var d, p := DispatchPhase(env, briefings), BuildAiPayload(env.payloadDate, env.analytics(env.payloadDate));
      d.outcome.Dispatched? ==>
        && p.Ok? && SummaryOk(env.summarise(p.value))
        && var summary := env.summarise(p.value).value;
          && d.effects == [Summarised(Some(summary)), BriefingLogged(env.briefingDate, DashboardReport(summary)),
                           Sent(CapWhatsApp(Sanitise(WhatsAppDraft(summary))), d.outcome.delivered)]
          && |CapWhatsApp(Sanitise(WhatsAppDraft(summary)))| <= MaxWhatsAppChars + |TruncationNotice|
          && d.briefings == LogBriefing(briefings, env.briefingDate, DashboardReport(summary))
  {
    var d := DispatchPhase(env, briefings);
    if d.outcome.Dispatched? {
      var summary := d.effects[0].summary.value;
      CapFitsTwilio(Sanitise(WhatsAppDraft(summary)));
    }
  }

  /** A run dispatches exactly when it has a token, every upsert of the
      fold went through, the payload could be built and the summariser
      answered it with a non-empty text. */
  lemma DispatchedExactly(env: Env, db: Db)
    ensures var r, p := RunDailyPipeline(env, db), BuildAiPayload(env.payloadDate, env.analytics(env.payloadDate));
      r.outcome.Dispatched? <==>
        && TokenOk(env.token)
        && ApplyBatches(UpsertStep, db.tables, RunBatches(env, db)).failure.None?
        && p.Ok? && SummaryOk(env.summarise(p.value))
  {
    if TokenOk(env.token) {
      RunWritesTables(env, db);
    }
  }

  /** Without a summary the run stops after asking for one: nothing is saved
      or sent. */
  lemma NoDispatchWithoutSummary(env: Env, db: Db)
    ensures var r := RunDailyPipeline(env, db);
      var p := BuildAiPayload(env.payloadDate, env.analytics(env.payloadDate));
      r.outcome.NoSummary? ==>
        && p.Ok? && !SummaryOk(env.summarise(p.value))
        && r.trace != [] && r.trace[|r.trace| - 1] == Summarised(env.summarise(p.value))
        && r.db.briefings == db.briefings
        && forall i :: 0 <= i < |r.trace| ==> !r.trace[i].Sent? && !r.trace[i].BriefingLogged?
  {
    var r := RunDailyPipeline(env, db);
    if r.outcome.NoSummary? {
      var since := LastSyncTime(db.syncLog);
      var sync := SyncModules(env, env.token.value, since, SyncOrder, db.tables);
      var d := DispatchPhase(env, db.briefings);
      var front := [WatermarkRead(since)] + sync.trace + [SyncLogged(sync.total)];
      SilentFront(since, sync.trace, sync.total);
      assert r.trace == front + d.effects;
      NothingSent(front, d.effects);
    }
  }

  /** The part of a finished run before the dispatch phase neither saves nor
      sends. */
  lemma SilentFront(since: Option<string>, t: seq<Effect>, total: nat)
    requires SyncEffects(t)
    ensures var front := [WatermarkRead(since)] + t + [SyncLogged(total)];
      forall i :: 0 <= i < |front| ==> front[i].WatermarkRead? || front[i].Fetch? || front[i].Upsert? || front[i].SyncLogged?
  {
    var front := [WatermarkRead(since)] + t + [SyncLogged(total)];
    assert forall i :: 0 < i < |front| - 1 ==> front[i] == t[i - 1];
  }

  /** A trace without saves or sends followed by a lone summary request has
      none either. */
  lemma NothingSent(front: seq<Effect>, effects: seq<Effect>)
    requires forall i :: 0 <= i < |front| ==> front[i].WatermarkRead? || front[i].Fetch? || front[i].Upsert? || front[i].SyncLogged?
    requires |effects| == 1 && effects[0].Summarised?
    ensures forall i :: 0 <= i < |front + effects| ==> !(front + effects)[i].Sent? && !(front + effects)[i].BriefingLogged?
  {
  }
}

=== FILE: records.dfy ===
/** The record normaliser of `upsert_module_data`
    (services/database_client.py): a raw CRM record, a JSON object, becomes a
    typed row for one of four tables. */
module Records {
  import opened Wrappers

  /** A JSON value as the CRM API delivers it. Numbers are integers here;
      fractional amounts are not modelled. */
  datatype Json =
    | JNull
    | JBool(b: bool)
    | JNum(n: int)
    | JStr(s: string)
    | JArr(items: seq<Json>)
    | JObj(fields: map<string, Json>)

  /** A raw record: one JSON object. */
  type Record = map<string, Json>

  /** Python truthiness of a decoded JSON value. */
  predicate Truthy(j: Json) {
    match j
    case JNull => false
    case JBool(b) => b
    case JNum(n) => n != 0
    case JStr(s) => s != []
    case JArr(a) => a != []
    case JObj(f) => f != map[]
  }

  /** `rec.get(key, default)`. */
  function GetOr(rec: Record, key: string, default: Json): Json {
    if key in rec then rec[key] else default
  }

  /** `rec.get(key)`: `None` when the key is absent. */
  function Get(rec: Record, key: string): Json {
    GetOr(rec, key, JNull)
  }

  // ---------------------------------------------------------------------------
  // Modules and tables
  // ---------------------------------------------------------------------------

  /** The four CRM modules the pipeline synchronises. */
  datatype Module = Leads | Deals | Contacts | Accounts

  function ModuleName(m: Module): string {
    match m
    case Leads => "Leads"
    case Deals => "Deals"
    case Contacts => "Contacts"
    case Accounts => "Accounts"
  }

  /** The module a `module_name` argument names, if any. */
  function ParseModule(name: string): (r: Option<Module>)
    ensures r.Some? ==> ModuleName(r.value) == name
    ensures r.None? ==> forall m: Module :: ModuleName(m) != name
  {
    if name == "Leads" then Some(Leads)
    else if name == "Deals" then Some(Deals)
    else if name == "Contacts" then Some(Contacts)
    else if name == "Accounts" then Some(Accounts)
    else None
  }

  /** The table each module's rows are written to. */
  function TableName(m: Module): string {
    match m
    case Leads => "leads_raw"
    case Deals => "crm_deals"
    case Contacts => "crm_contacts"
    case Accounts => "crm_accounts"
  }

  /** Module names and table names are in one-to-one correspondence with the
      modules. */
  lemma NamesRoundTrip(m: Module)
    ensures ParseModule(ModuleName(m)) == Some(m)
    ensures forall m': Module :: TableName(m') == TableName(m) ==> m' == m
  {
  }

  // ---------------------------------------------------------------------------
  // Field conversions
  // ---------------------------------------------------------------------------

  const Unassigned := "Unassigned"
  const Unknown := "Unknown"
  const NewLead := "New Lead"

  /** The owner column: the `name` entry of an `Owner` object, `'Unassigned'`
      when that entry is missing or when `Owner` is absent or not an object. */
  function OwnerOf(rec: Record): (r: Json)
    ensures "Owner" in rec && rec["Owner"].JObj? && "name" in rec["Owner"].fields ==>
      r == rec["Owner"].fields["name"]
    ensures !("Owner" in rec && rec["Owner"].JObj? && "name" in rec["Owner"].fields) ==>
      r == JStr(Unassigned)
  {
    match Get(rec, "Owner")
    case JObj(f) => GetOr(f, "name", JStr(Unassigned))
    case _ => JStr(Unassigned)
  }

  /** Why a record could not be converted: `float()` of a value it rejects. */
  datatype ConversionError = NotANumber(value: Json)

  /** `float(x or 0)` on integers: a falsy value is 0, a number is itself,
      `True` is 1; strings, arrays and objects are refused. */
  function ToAmount(x: Json): (r: Result<int, ConversionError>)
    ensures !Truthy(x) ==> r == Ok(0)
    ensures x.JNum? ==> r == Ok(x.n)
    ensures x == JBool(true) ==> r == Ok(1)
    ensures r.Err? <==> Truthy(x) && (x.JStr? || x.JArr? || x.JObj?)
    ensures r.Err? ==> r.error == NotANumber(x)
  {
    if !Truthy(x) then Ok(0)
    else match x
      case JNum(n) => Ok(n)
      case JBool(_) => Ok(1)
      case _ => Err(NotANumber(x))
  }

  /** `float(rec.get(key, 0) or 0)`: an absent key reads as 0, like a falsy
      value. */
  function AmountField(rec: Record, key: string): (r: Result<int, ConversionError>)
    ensures key !in rec ==> r == Ok(0)
    ensures key in rec ==> r == ToAmount(rec[key])
  {
    ToAmount(GetOr(rec, key, JNum(0)))
  }

  // ---------------------------------------------------------------------------
  // Rows
  // ---------------------------------------------------------------------------

  /** The module-specific columns of a row. An unknown module name builds rows
      without them (and nothing is written). */
  datatype Detail =
    | LeadDetail(fullName: Json, leadSource: Json, leadStatus: Json, annualRevenue: int)
    | DealDetail(dealName: Json, stage: Json, source: Json, amount: int, closedTime: Json)
    | ContactDetail(fullName: Json, email: Json)
    | AccountDetail(accountName: Json, industry: Json)
    | NoDetail

  /** One table row; `rawData` is the whole input record. */
  datatype Row = Row(id: Json, owner: Json, createdTime: Json, modifiedTime: Json, rawData: Record, detail: Detail)

  /** A record is kept when its `id` is present and truthy. */
  predicate HasId(rec: Record) {
    Truthy(Get(rec, "id"))
  }

  /** The module-specific columns of `rec`. */
  function DetailOf(m: Option<Module>, rec: Record): (r: Result<Detail, ConversionError>)
    ensures m == Some(Leads) && r.Ok? ==>
      r.value.LeadDetail? && r.value.fullName == GetOr(rec, "Full_Name", JStr(Unknown))
      && r.value.leadSource == GetOr(rec, "Lead_Source", JStr(Unknown))
      && r.value.leadStatus == GetOr(rec, "Lead_Status", JStr(NewLead))
      && AmountField(rec, "Annual_Revenue") == Ok(r.value.annualRevenue)
    ensures m == Some(Deals) && r.Ok? ==>
      r.value.DealDetail? && r.value.dealName == GetOr(rec, "Deal_Name", JStr(Unknown))
      && r.value.stage == GetOr(rec, "Stage", JStr(Unknown))
      && r.value.source == GetOr(rec, "Lead_Source", JStr(Unknown))
      && AmountField(rec, "Amount") == Ok(r.value.amount)
      && r.value.closedTime == Get(rec, "Closing_Date")
    ensures m == Some(Contacts) ==>
      r == Ok(ContactDetail(GetOr(rec, "Full_Name", JStr(Unknown)), GetOr(rec, "Email", JStr(Unknown))))
    ensures m == Some(Accounts) ==>
      r == Ok(AccountDetail(GetOr(rec, "Account_Name", JStr(Unknown)), GetOr(rec, "Industry", JStr(Unknown))))
    ensures m.None? ==> r == Ok(NoDetail)
    ensures r.Err? <==>
      || (m == Some(Leads) && AmountField(rec, "Annual_Revenue").Err?)
      || (m == Some(Deals) && AmountField(rec, "Amount").Err?)
    ensures r.Err? ==>
      var a := if m == Some(Leads) then AmountField(rec, "Annual_Revenue") else AmountField(rec, "Amount");
      a.Err? && r.error == a.error
  {
    match m
    case Some(Leads) =>
      var revenue :- AmountField(rec, "Annual_Revenue");
      Ok(LeadDetail(GetOr(rec, "Full_Name", JStr(Unknown)), GetOr(rec, "Lead_Source", JStr(Unknown)),
                    GetOr(rec, "Lead_Status", JStr(NewLead)), revenue))
    case Some(Deals) =>
      var amount :- AmountField(rec, "Amount");
      Ok(DealDetail(GetOr(rec, "Deal_Name", JStr(Unknown)), GetOr(rec, "Stage", JStr(Unknown)),
                    GetOr(rec, "Lead_Source", JStr(Unknown)), amount, Get(rec, "Closing_Date")))
    case Some(Contacts) =>
      Ok(ContactDetail(GetOr(rec, "Full_Name", JStr(Unknown)), GetOr(rec, "Email", JStr(Unknown))))
    case Some(Accounts) =>
      Ok(AccountDetail(GetOr(rec, "Account_Name", JStr(Unknown)), GetOr(rec, "Industry", JStr(Unknown))))
    case None => Ok(NoDetail)
  }

  /** The record fields the module-specific columns are read from. */
  function SourceKeys(m: Option<Module>): set<string> {
    match m
    case Some(Leads) => {"Full_Name", "Lead_Source", "Lead_Status", "Annual_Revenue"}
    case Some(Deals) => {"Deal_Name", "Stage", "Lead_Source", "Amount", "Closing_Date"}
    case Some(Contacts) => {"Full_Name", "Email"}
    case Some(Accounts) => {"Account_Name", "Industry"}
    case None => {}
  }

  /** The module-specific columns of a record that has none of the source
      fields: every text column takes its default, every amount is 0 and the
      closing date is `None`. */
  function DefaultDetail(m: Option<Module>): Detail {
    match m
    case Some(Leads) => LeadDetail(JStr(Unknown), JStr(Unknown), JStr(NewLead), 0)
    case Some(Deals) => DealDetail(JStr(Unknown), JStr(Unknown), JStr(Unknown), 0, JNull)
    case Some(Contacts) => ContactDetail(JStr(Unknown), JStr(Unknown))
    case Some(Accounts) => AccountDetail(JStr(Unknown), JStr(Unknown))
    case None => NoDetail
  }

  /** The module-specific columns depend on the module's source fields only:
      two records that agree on those (present with the same value, or both
      absent) get the same columns, whatever else they hold. */
  lemma DetailReadsOnly(m: Option<Module>, a: Record, b: Record)
    requires forall k :: k in SourceKeys(m) ==> (k in a <==> k in b) && (k in a ==> a[k] == b[k])
    ensures DetailOf(m, a) == DetailOf(m, b)
  {
    match m
    case Some(Leads) =>
      assert "Annual_Revenue" in SourceKeys(m) && "Full_Name" in SourceKeys(m);
      assert "Lead_Source" in SourceKeys(m) && "Lead_Status" in SourceKeys(m);
    case Some(Deals) =>
      assert "Deal_Name" in SourceKeys(m) && "Stage" in SourceKeys(m) && "Lead_Source" in SourceKeys(m);
      assert "Amount" in SourceKeys(m) && "Closing_Date" in SourceKeys(m);
    case Some(Contacts) =>
      assert "Full_Name" in SourceKeys(m) && "Email" in SourceKeys(m);
    case Some(Accounts) =>
      assert "Account_Name" in SourceKeys(m) && "Industry" in SourceKeys(m);
    case None =>
  }

  /** A record that carries none of its module's source fields converts, and
      gets the default columns. */
  lemma DetailDefaults(m: Option<Module>, rec: Record)
    requires forall k :: k in SourceKeys(m) ==> k !in rec
    ensures DetailOf(m, rec) == Ok(DefaultDetail(m))
  {
    DetailReadsOnly(m, rec, map[]);
  }

  /** The row for one kept record. */
  function BuildRow(m: Option<Module>, rec: Record): (r: Result<Row, ConversionError>)
    ensures r.Ok? <==> DetailOf(m, rec).Ok?
    ensures r.Ok? ==> (
      && r.value.rawData == rec
      && r.value.id == Get(rec, "id")
      && r.value.owner == OwnerOf(rec)
      && r.value.createdTime == Get(rec, "Created_Time")
      && r.value.modifiedTime == Get(rec, "Modified_Time")
      && r.value.detail == DetailOf(m, rec).value)
    ensures r.Err? ==> DetailOf(m, rec).Err? && r.error == DetailOf(m, rec).error
  {
    var detail :- DetailOf(m, rec);
    Ok(Row(Get(rec, "id"), OwnerOf(rec), Get(rec, "Created_Time"), Get(rec, "Modified_Time"), rec, detail))
  }

  /** The records that have an id, in input order. */
  function Kept(records: seq<Record>): (r: seq<Record>)
    ensures forall rec :: rec in r <==> rec in records && HasId(rec)
    ensures |r| <= |records|
  {
    if records == [] then []
    else
      assert records == [records[0]] + records[1..];
      if HasId(records[0]) then [records[0]] + Kept(records[1..])
      else Kept(records[1..])
  }

  /** Keeping distributes over concatenation, so the kept records keep their
      relative order. */
  lemma {:induction false} KeptAppend(a: seq<Record>, b: seq<Record>)
    ensures Kept(a + b) == Kept(a) + Kept(b)
    decreases |a|
  {
    if a == [] {
      assert a + b == b;
    } else {
      assert (a + b)[0] == a[0] && (a + b)[1..] == a[1..] + b;
      KeptAppend(a[1..], b);
    }
  }

  /** The rows of a batch: one per kept record, in order; the first record
      whose conversion fails aborts the batch with that record's error. */
  function NormaliseBatch(m: Option<Module>, records: seq<Record>): (r: Result<seq<Row>, ConversionError>)
    ensures r.Ok? <==> forall rec :: rec in Kept(records) ==> BuildRow(m, rec).Ok?
    ensures r.Ok? ==> |r.value| == |Kept(records)|
    ensures r.Ok? ==> forall i :: 0 <= i < |r.value| ==> Ok(r.value[i]) == BuildRow(m, Kept(records)[i])
    ensures r.Err? ==> exists rec :: rec in Kept(records) && BuildRow(m, rec) == Err(r.error)
  {
    if records == [] then Ok([])
    else if !HasId(records[0]) then NormaliseBatch(m, records[1..])
    else
      var row :- BuildRow(m, records[0]);
      var rest :- NormaliseBatch(m, records[1..]);
      Ok([row] + rest)
  }

  /** Record `i` of `kept` is the first whose conversion fails, with error
      `e`: every record before it converts. */
  predicate FailsFirstAt(m: Option<Module>, kept: seq<Record>, i: nat, e: ConversionError) {
    && i < |kept|
    && BuildRow(m, kept[i]) == Err(e)
    && forall j :: 0 <= j < i ==> BuildRow(m, kept[j]).Ok?
  }

  /** The error of a failed batch is the one of its FIRST kept record whose
      conversion fails, as in a loop over the records in input order. */
  lemma {:induction false} NormaliseBatchFirstError(m: Option<Module>, records: seq<Record>)
    ensures NormaliseBatch(m, records).Err? ==>
      exists i :: FailsFirstAt(m, Kept(records), i, NormaliseBatch(m, records).error)
    decreases |records|
  {
    var r := NormaliseBatch(m, records);
    if records != [] && r.Err? {
      var later := Kept(records[1..]);
      NormaliseBatchFirstError(m, records[1..]);
      if !HasId(records[0]) {
        assert Kept(records) == later;
      } else if BuildRow(m, records[0]).Err? {
        assert FailsFirstAt(m, Kept(records), 0, r.error);
      } else {
        assert Kept(records) == [records[0]] + later;
        var i :| FailsFirstAt(m, later, i, r.error);
        FailsFirstCons(m, records[0], later, i, r.error);
      }
    }
  }

  /** A converting record put in front moves the first failure one place on. */
  lemma FailsFirstCons(m: Option<Module>, x: Record, later: seq<Record>, i: nat, e: ConversionError)
    requires BuildRow(m, x).Ok? && FailsFirstAt(m, later, i, e)
    ensures FailsFirstAt(m, [x] + later, i + 1, e)
  {
    assert ([x] + later)[i + 1] == later[i];
    AllBeforeCons(rec => BuildRow(m, rec).Ok?, x, later, i);
  }

  /** A prefix property moves one place on when an element that has it is
      put in front. */
  lemma AllBeforeCons<T>(p: T -> bool, x: T, later: seq<T>, i: nat)
    requires p(x) && i <= |later|
    requires forall j :: 0 <= j < i ==> p(later[j])
    ensures forall j :: 0 <= j < i + 1 ==> p(([x] + later)[j])
  {
    forall j | 0 <= j < i + 1
      ensures p(([x] + later)[j])
    {
      if j > 0 {
        assert ([x] + later)[j] == later[j - 1];
      }
    }
  }
}

=== FILE: report.dfy ===
/** The report splitter of `run_daily_pipeline` (jobs/run_daily_sync.py):
    the generated summary is split into a long-form dashboard report and a
    WhatsApp report, the WhatsApp report is cleaned of stray tags and capped
    at a character budget. */
module Report {
  import opened Wrappers
  import opened Text

  const DashboardOpen := "<DASHBOARD_REPORT>"
  const DashboardClose := "</DASHBOARD_REPORT>"
  const WhatsAppOpen := "<WHATSAPP_REPORT>"
  const WhatsAppClose := "</WHATSAPP_REPORT>"

  /** The four strings `</?(DASHBOARD|WHATSAPP)_REPORT>` matches, in the
      order its backtracking tries them. */
  const StrayTags := [DashboardClose, WhatsAppClose, DashboardOpen, WhatsAppOpen]

  /** The WhatsApp budget; the transport ceiling is 1600. */
  const MaxWhatsAppChars := 1500
  const TwilioCeiling := 1600
  const TruncationNotice := "\n\n_(Report truncated to fit WhatsApp limit.)_"

  // ---------------------------------------------------------------------------
  // Tag-pair extraction: re.search(OPEN \s*(.*?)\s* CLOSE, re.DOTALL | re.IGNORECASE)
  // ---------------------------------------------------------------------------

  /** Some opening tag is followed, at or after its end, by a closing tag
      (both ignoring case). */
  ghost predicate HasTagPair(s: string, open: string, close: string) {
    exists p, q :: MatchesTagAt(s, open, p) && p + |open| <= q && MatchesTagAt(s, close, q)
  }

  /** `p` is the first opening tag and `q` the first closing tag after it. */
  ghost predicate FirstTagPair(s: string, open: string, close: string, p: int, q: int) {
    && MatchesTagAt(s, open, p)
    && (forall i :: 0 <= i < p ==> !MatchesTagAt(s, open, i))
    && p + |open| <= q
    && MatchesTagAt(s, close, q)
    && (forall j :: p + |open| <= j < q ==> !MatchesTagAt(s, close, j))
  }

  /** `group(1).strip()` of the tag-pair search, or `None` when the search
      finds no match. */
  function Extract(s: string, open: string, close: string): (r: Option<string>)
    ensures r.Some? <==> HasTagPair(s, open, close)
    ensures forall p, q :: FirstTagPair(s, open, close, p, q) ==> r == Some(Strip(s[p + |open|..q]))
  {
    FirstTagPairFound(s, open, close);
    match FindTag(s, open, 0)
    case None => None
    case Some(p) =>
      match FindTag(s, close, p + |open|)
      case None => None
      case Some(q) => Some(Strip(s[p + |open|..q]))
  }

  /** The first tag pair is where the two leftmost searches land. */
  lemma FirstTagPairFound(s: string, open: string, close: string)
    ensures forall p, q :: FirstTagPair(s, open, close, p, q) ==>
      FindTag(s, open, 0) == Some(p) && FindTag(s, close, p + |open|) == Some(q)
  {
    forall p, q | FirstTagPair(s, open, close, p, q)
      ensures FindTag(s, open, 0) == Some(p) && FindTag(s, close, p + |open|) == Some(q)
    {
      assert MatchesTagAt(s, open, p) && MatchesTagAt(s, close, q);
    }
  }

  /** One way the pattern `OPEN \s*(.*?)\s* CLOSE` matches `s`: the opening
      tag at `p`, the group `s[g0..g1]`, the closing tag at `q`, with only
      whitespace between the tags and the group. */
  ghost predicate RegexMatch(s: string, open: string, close: string, p: int, g0: int, g1: int, q: int) {
    && MatchesTagAt(s, open, p)
    && p + |open| <= g0 <= g1 <= q
    && MatchesTagAt(s, close, q)
    && (forall k :: p + |open| <= k < g0 ==> IsSpace(s[k]))
    && (forall k :: g1 <= k < q ==> IsSpace(s[k]))
  }

  /** The match `re.search` reports: it starts leftmost, and among matches at
      that start the lazy group is as short as possible. (The greedy `\s*`
      runs pick the rest; they do not change the stripped group.) */
  ghost predicate SearchChoice(s: string, open: string, close: string, p: int, g0: int, g1: int, q: int) {
    && RegexMatch(s, open, close, p, g0, g1, q)
    && (forall p', g0', g1', q' :: 0 <= p' < p ==> !RegexMatch(s, open, close, p', g0', g1', q'))
    && (forall g1', q' :: g0 <= g1' < g1 ==> !RegexMatch(s, open, close, p, g0, g1', q'))
  }

  /** The search finds no match exactly when `Extract` is `None`. */
  lemma ExtractNoneIffNoMatch(s: string, open: string, close: string)
    ensures Extract(s, open, close).None? <==>
      forall p, g0, g1, q :: !RegexMatch(s, open, close, p, g0, g1, q)
  {
    forall p, g0, g1, q | RegexMatch(s, open, close, p, g0, g1, q)
      ensures HasTagPair(s, open, close)
    {
    }
    if HasTagPair(s, open, close) {
      var p, q :| MatchesTagAt(s, open, p) && p + |open| <= q && MatchesTagAt(s, close, q);
      assert RegexMatch(s, open, close, p, p + |open|, q, q);
    }
  }

  /** When the search reports a match, `Extract` is its stripped group. This
      relies on the closing tag starting with `<`, which is not whitespace. */
  lemma ExtractIsSearchGroup(s: string, open: string, close: string, p: int, g0: int, g1: int, q: int)
    requires |close| > 0 && close[0] == '<'
    requires SearchChoice(s, open, close, p, g0, g1, q)
    ensures Extract(s, open, close) == Some(Strip(s[g0..g1]))
  {
    SearchChoiceIsFirstPair(s, open, close, p, g0, g1, q);
    FirstPairGroup(s, open, close, p, g0, g1, q);
  }

  /** A match spanning the first tag pair has `Extract`'s group, up to the
      whitespace around it. */
  lemma FirstPairGroup(s: string, open: string, close: string, p: int, g0: int, g1: int, q: int)
    requires RegexMatch(s, open, close, p, g0, g1, q) && FirstTagPair(s, open, close, p, q)
    ensures Extract(s, open, close) == Some(Strip(s[g0..g1]))
  {
    StripInner(s, p + |open|, g0, g1, q);
  }

  /** The reported match spans the first opening tag and the first closing
      tag after it. */
  lemma SearchChoiceIsFirstPair(s: string, open: string, close: string, p: int, g0: int, g1: int, q: int)
    requires |close| > 0 && close[0] == '<'
    requires SearchChoice(s, open, close, p, g0, g1, q)
    ensures FirstTagPair(s, open, close, p, q)
  {
    forall i | 0 <= i < p
      ensures !MatchesTagAt(s, open, i)
    {
      // a match starting at i would take the whole span up to q as its group
      assert !RegexMatch(s, open, close, i, i + |open|, q, q);
    }
    forall j | p + |open| <= j < q
      ensures !MatchesTagAt(s, close, j)
    {
      if g0 <= j < g1 {
        // a closing tag there would end a shorter lazy group
        assert !RegexMatch(s, open, close, p, g0, j, j);
      } else {
        // a closing tag there would start inside a whitespace run
        assert IsSpace(s[j]);
        assert !FoldsTo(s[j + 0], close[0]);
      }
    }
  }

  // ---------------------------------------------------------------------------
  // The two reports
  // ---------------------------------------------------------------------------

  /** `summary.replace(DashboardOpen, '').replace(DashboardClose, '')`:
      exact-case deletion, the opening tag first. */
  function DeleteDashboardTags(summary: string): string {
    DeleteAll(DeleteAll(summary, [DashboardOpen]), [DashboardClose])
  }

  /** The dashboard report: the tagged section when there is one, otherwise
      the whole summary with the exact-case dashboard tags removed. Either
      way it carries no surrounding whitespace. */
  function DashboardReport(summary: string): (r: string)
    ensures forall p, q :: FirstTagPair(summary, DashboardOpen, DashboardClose, p, q) ==>
      r == Strip(summary[p + |DashboardOpen|..q])
    ensures !HasTagPair(summary, DashboardOpen, DashboardClose) ==> r == Strip(DeleteDashboardTags(summary))
    ensures r == [] || (!IsSpace(r[0]) && !IsSpace(r[|r| - 1]))
  {
    match Extract(summary, DashboardOpen, DashboardClose)
    case Some(d) => d
    case None => Strip(DeleteDashboardTags(summary))
  }

  /** The WhatsApp text before sanitising: the tagged section when there is
      one, otherwise the dashboard report verbatim. */
  function WhatsAppDraft(summary: string): (r: string)
    ensures forall p, q :: FirstTagPair(summary, WhatsAppOpen, WhatsAppClose, p, q) ==>
      r == Strip(summary[p + |WhatsAppOpen|..q])
    ensures !HasTagPair(summary, WhatsAppOpen, WhatsAppClose) ==> r == DashboardReport(summary)
  {
    match Extract(summary, WhatsAppOpen, WhatsAppClose)
    case Some(w) => w
    case None => DashboardReport(summary)
  }

  /** `re.sub(r'</?(DASHBOARD|WHATSAPP)_REPORT>', '', w).strip()` */
  function Sanitise(w: string): (r: string)
    ensures NoOccurrence(w, StrayTags) ==> r == Strip(w)
    ensures |r| <= |w|
  {
    DeleteAllIdentity(w, StrayTags);
    Strip(DeleteAll(w, StrayTags))
  }

  /** The clean-up deletes tag occurrences only, then strips; the text is
      changed before the strip exactly when some tag occurs in it. */
  lemma SanitiseDeletes(w: string)
    ensures exists t :: (ObtainedByDeleting(w, t, StrayTags) && Sanitise(w) == Strip(t)
                         && (t == w <==> NoOccurrence(w, StrayTags)))
  {
    var t := DeleteAll(w, StrayTags);
    DeleteAllOnlyDeletes(w, StrayTags);
    DeleteAllIdentity(w, StrayTags);
    assert Sanitise(w) == Strip(t);
  }

  /** The clean-up scans left to right: the text before the leftmost tag is
      kept, that tag is removed and the scan resumes right after it. */
  lemma SanitiseAtLeftmost(w: string, i: nat)
    requires i <= |w| && KeptBefore(w, StrayTags, i) && MatchedLength(w[i..], StrayTags) > 0
    ensures Sanitise(w) == Strip(w[..i] + DeleteAll(w[i + MatchedLength(w[i..], StrayTags)..], StrayTags))
  {
    DeleteAllAtLeftmost(w, StrayTags, i);
  }

  /** The clean-up is a single pass: deleting a tag can join its neighbours
      into a new tag, which survives. Here `<` + `<WHATSAPP_REPORT>` +
      `WHATSAPP_REPORT>` comes out as `<WHATSAPP_REPORT>`. */
  lemma SanitiseCanLeaveTag()
    ensures Sanitise("<" + WhatsAppOpen + WhatsAppOpen[1..]) == WhatsAppOpen
  {
    var tail := WhatsAppOpen[1..];
    var w := "<" + WhatsAppOpen + tail;
    BracketBeforeTag(w);
    assert w[1..][..|WhatsAppOpen|] == WhatsAppOpen;
    WhatsAppOpenFirst(w[1..]);
    ShortTextClean(tail);
    DeleteAllSplice("<", WhatsAppOpen, tail, StrayTags);
    assert "<" + tail == WhatsAppOpen;
    StripUnique(WhatsAppOpen, 0, |WhatsAppOpen|);
  }

  /** No stray tag starts at a `<` followed by another `<`. */
  lemma BracketBeforeTag(w: string)
    requires |w| > 1 && w[1] == '<'
    ensures MatchedLength(w, StrayTags) == 0
  {
    forall k | 0 <= k < |StrayTags|
      ensures !PrefixAt(w, StrayTags[k])
    {
      Differs(w, StrayTags[k], 1);
    }
    MatchedLengthMeaning(w, StrayTags);
  }

  /** At an opening WhatsApp tag the alternation deletes exactly that tag. */
  lemma WhatsAppOpenFirst(v: string)
    requires PrefixAt(v, WhatsAppOpen)
    ensures MatchedLength(v, StrayTags) == |WhatsAppOpen|
  {
    assert v[1] == v[..|WhatsAppOpen|][1] == 'W';
    Differs(v, StrayTags[0], 1);
    Differs(v, StrayTags[1], 1);
    Differs(v, StrayTags[2], 1);
    assert PrefixAt(v, StrayTags[3]);
    MatchedLengthMeaning(v, StrayTags);
  }

  /** A text shorter than every stray tag contains none. */
  lemma ShortTextClean(t: string)
    requires |t| < |WhatsAppOpen|
    ensures NoOccurrence(t, StrayTags)
  {
    forall i, k | 0 <= i < |t| && 0 <= k < |StrayTags|
      ensures !PrefixAt(t[i..], StrayTags[k])
    {
      assert |t[i..]| < |StrayTags[k]|;
    }
  }

  /** A literal does not start a text that differs from it at index `k`. */
  lemma Differs(s: string, p: string, k: int)
    requires 0 <= k < |p| && k < |s| && s[k] != p[k]
    ensures !PrefixAt(s, p)
  {
    if |p| <= |s| {
      assert s[..|p|][k] == s[k];
    }
  }

  // ---------------------------------------------------------------------------
  // The WhatsApp cap
  // ---------------------------------------------------------------------------

  /** `s.rfind(c)`: the last index of `c` in `s`, or -1. */
  function LastIndexOf(s: string, c: char): (r: int)
    ensures -1 <= r < |s|
    ensures r >= 0 ==> s[r] == c
    ensures forall k :: r < k < |s| ==> s[k] != c
    decreases |s|
  {
    if s == [] then -1
    else if s[|s| - 1] == c then |s| - 1
    else LastIndexOf(s[..|s| - 1], c)
  }

  /** Where an over-long WhatsApp text is cut: just before the last newline
      among its first `MaxWhatsAppChars` characters when that newline is not
      the very first character, else at the budget itself. */
  ghost predicate CutAt(s: string, k: int)
    requires |s| > MaxWhatsAppChars
  {
    || (0 < k < MaxWhatsAppChars && s[k] == '\n' && forall j :: k < j < MaxWhatsAppChars ==> s[j] != '\n')
    || (k == MaxWhatsAppChars && forall j :: 0 < j < MaxWhatsAppChars ==> s[j] != '\n')
  }

  /** The hard cap: a text within budget is untouched; a longer one keeps the
      prefix up to the cut and gets the truncation notice appended. The
      notice comes after the cut, so the budget is exceeded by its length. */
  function CapWhatsApp(s: string): (r: string)
    ensures |s| <= MaxWhatsAppChars ==> r == s
    ensures |s| > MaxWhatsAppChars ==> exists k :: CutAt(s, k) && r == s[..k] + TruncationNotice
    ensures |r| <= MaxWhatsAppChars + |TruncationNotice|
  {
    if |s| <= MaxWhatsAppChars then s
    else
      var truncated := s[..MaxWhatsAppChars];
      var lastNewline := LastIndexOf(truncated, '\n');
      var kept := if lastNewline > 0 then truncated[..lastNewline] else truncated;
      assert CutAt(s, |kept|);
      kept + TruncationNotice
  }

  /** The cut is determined by the text: any cut point `CutAt` admits is the
      one `CapWhatsApp` uses. */
  lemma CapCutsAt(s: string, k: int)
    requires |s| > MaxWhatsAppChars && CutAt(s, k)
    ensures CapWhatsApp(s) == s[..k] + TruncationNotice
  {
    var k' :| CutAt(s, k') && CapWhatsApp(s) == s[..k'] + TruncationNotice;
    CutAtUnique(s, k, k');
  }

  /** Two different cut points cannot both satisfy `CutAt`. */
  lemma CutAtUnique(s: string, k: int, k': int)
    requires |s| > MaxWhatsAppChars && CutAt(s, k) && CutAt(s, k')
    ensures k == k'
  {
  }

  /** The capped text always fits under the transport ceiling the budget
      leaves headroom for. */
  lemma CapFitsTwilio(s: string)
    ensures |CapWhatsApp(s)| <= TwilioCeiling
  {
  }

  /** A 1501-character line without newlines comes out 1545 characters long:
      the cap does not keep the result within 1500 characters. */
  lemma CapExceedsBudget()
    ensures |CapWhatsApp(seq(1501, _ => 'a'))| == MaxWhatsAppChars + |TruncationNotice| > MaxWhatsAppChars
  {
    var s := seq(1501, _ => 'a');
    assert CutAt(s, MaxWhatsAppChars);
    CapCutsAt(s, MaxWhatsAppChars);
  }

  // ---------------------------------------------------------------------------
  // The split as a whole
  // ---------------------------------------------------------------------------

  /** What the dispatcher receives: the dashboard report, saved untruncated,
      and the sanitised, capped WhatsApp report. */
  datatype Briefs = Briefs(dashboard: string, whatsapp: string)

  function SplitReport(summary: string): (b: Briefs)
    ensures b.dashboard == DashboardReport(summary)
    ensures |b.whatsapp| <= MaxWhatsAppChars + |TruncationNotice|
    ensures |Sanitise(WhatsAppDraft(summary))| <= MaxWhatsAppChars ==>
      b.whatsapp == Sanitise(WhatsAppDraft(summary))
    ensures |Sanitise(WhatsAppDraft(summary))| > MaxWhatsAppChars ==>
      exists k :: CutAt(Sanitise(WhatsAppDraft(summary)), k) &&
        b.whatsapp == Sanitise(WhatsAppDraft(summary))[..k] + TruncationNotice
  {
    Briefs(DashboardReport(summary), CapWhatsApp(Sanitise(WhatsAppDraft(summary))))
  }
}

=== FILE: stores.dfy ===
/** The database tables of services/database_client.py as values: the CRM
    tables written by `upsert_module_data`, the append-only `sync_logs`
    table that yields the sync watermark, and the `ai_briefings_log` table
    keyed by report date. */
module Stores {
  import opened Wrappers
  import opened Records

  // ---------------------------------------------------------------------------
  // CRM tables: upsert keyed by id
  // ---------------------------------------------------------------------------

  /** One CRM table: rows by primary key. */
  type Table = map<Json, Row>

  /** The ids a batch of rows carries. */
  function IdsOf(rows: seq<Row>): set<Json> {
    set i | 0 <= i < |rows| :: rows[i].id
  }

  /** Rows written one after another, each inserting its id or replacing the
      row that has it. */
  function UpsertRows(t: Table, rows: seq<Row>): (r: Table)
    ensures r.Keys == t.Keys + IdsOf(rows)
    decreases |rows|
  {
    if rows == [] then t
    else
      assert IdsOf(rows) == {rows[0].id} + IdsOf(rows[1..]) by {
        assert forall i :: 0 < i < |rows| ==> rows[i] == rows[1..][i - 1];
      }
      UpsertRows(t[rows[0].id := rows[0]], rows[1..])
  }

  /** The batch on its own, as a table: each id with its last row. */
  function Batch(rows: seq<Row>): Table {
    UpsertRows(map[], rows)
  }

  /** Upserting a batch overrides the table with the batch's own table. */
  lemma {:induction false} UpsertIsOverride(t: Table, rows: seq<Row>)
    ensures UpsertRows(t, rows) == t + Batch(rows)
    decreases |rows|
  {
    if rows != [] {
      var r0, rest := rows[0], rows[1..];
      UpsertIsOverride(t[r0.id := r0], rest);
      UpsertIsOverride(map[r0.id := r0], rest);
      assert t[r0.id := r0] + Batch(rest) == t + (map[r0.id := r0] + Batch(rest));
    }
  }

  /** Ids the batch does not carry are untouched: present or absent as before,
      with the same row. */
  lemma {:induction false} UpsertKeepsOthers(t: Table, rows: seq<Row>, k: Json)
    requires k !in IdsOf(rows)
    ensures k in UpsertRows(t, rows) <==> k in t
    ensures k in t ==> UpsertRows(t, rows)[k] == t[k]
  {
    UpsertIsOverride(t, rows);
  }

  /** The last row of the batch with a given id is the one stored. */
  lemma {:induction false} UpsertLastWins(t: Table, rows: seq<Row>, i: int)
    requires 0 <= i < |rows|
    requires forall j :: i < j < |rows| ==> rows[j].id != rows[i].id
    ensures rows[i].id in UpsertRows(t, rows) && UpsertRows(t, rows)[rows[i].id] == rows[i]
    decreases |rows|
  {
    var r0, rest := rows[0], rows[1..];
    if i == 0 {
      assert r0.id !in IdsOf(rest);
      UpsertKeepsOthers(t[r0.id := r0], rest, r0.id);
    } else {
      UpsertLastWins(t[r0.id := r0], rest, i - 1);
    }
  }

  /** Writing the same batch twice leaves the table as writing it once. */
  lemma UpsertIdempotent(t: Table, rows: seq<Row>)
    ensures UpsertRows(UpsertRows(t, rows), rows) == UpsertRows(t, rows)
  {
    UpsertIsOverride(t, rows);
    UpsertIsOverride(UpsertRows(t, rows), rows);
    assert (t + Batch(rows)) + Batch(rows) == t + Batch(rows);
  }

  /** All CRM tables, by table name; a missing name is an empty table. */
  type Tables = map<string, Table>

  function TableOf(tables: Tables, name: string): Table {
    if name in tables then tables[name] else map[]
  }

  /** One upsert call on a named table: only that table changes, and it is
      overridden by the batch. */
  function WriteRows(tables: Tables, table: string, rows: seq<Row>): (r: Tables)
    ensures r.Keys == tables.Keys + {table}
    ensures forall name :: name in tables && name != table ==> r[name] == tables[name]
    ensures r[table] == TableOf(tables, table) + Batch(rows)
  {
    UpsertIsOverride(TableOf(tables, table), rows);
    tables[table := UpsertRows(TableOf(tables, table), rows)]
  }

  /** `upsert_module_data(module_name, records)`: nothing is written for an
      empty batch, for an unknown module or when every record lacks an id; a
      record whose amount cannot be converted aborts before anything is
      written; otherwise the module's table gets the batch's rows. */
  function UpsertModuleData(tables: Tables, moduleName: string, records: seq<Record>): (r: Result<Tables, ConversionError>)
    ensures records == [] ==> r == Ok(tables)
    ensures ParseModule(moduleName).None? ==> r == Ok(tables)
    ensures Kept(records) == [] ==> r == Ok(tables)
    ensures r.Err? <==> exists rec :: rec in Kept(records) && BuildRow(ParseModule(moduleName), rec).Err?
    ensures r.Err? ==> (NormaliseBatch(ParseModule(moduleName), records).Err?
                        && r.error == NormaliseBatch(ParseModule(moduleName), records).error)
    ensures r.Ok? && ParseModule(moduleName).Some? && Kept(records) != [] ==>
      r.value == WriteRows(tables, TableName(ParseModule(moduleName).value),
                           NormaliseBatch(ParseModule(moduleName), records).value)
  {
    if records == [] then Ok(tables)
    else
      var m := ParseModule(moduleName);
      var rows :- NormaliseBatch(m, records);
      if rows != [] && m.Some? then Ok(WriteRows(tables, TableName(m.value), rows))
      else Ok(tables)
  }

  /** The error an upsert raises is the conversion error of the first kept
      record, in input order, whose amount is refused. */
  lemma UpsertRaisesFirstError(tables: Tables, moduleName: string, records: seq<Record>)
    ensures UpsertModuleData(tables, moduleName, records).Err? ==>
      exists i :: FailsFirstAt(ParseModule(moduleName), Kept(records), i, UpsertModuleData(tables, moduleName, records).error)
  {
    NormaliseBatchFirstError(ParseModule(moduleName), records);
  }

  // ---------------------------------------------------------------------------
  // Sync log: append-only, read back as the watermark
  // ---------------------------------------------------------------------------

  const Success := "SUCCESS"

  /** One `sync_logs` row. Times are opaque ISO timestamps. */
  datatype SyncEntry = SyncEntry(syncTime: string, recordsFetched: int, status: string)

  /** The sync log in insertion order: a later position is a higher id. */
  type SyncLog = seq<SyncEntry>

  /** `log_sync(records_fetched)` at time `now`: a successful entry is
      appended and nothing before it changes. */
  function LogSync(log: SyncLog, now: string, recordsFetched: int): (r: SyncLog)
    ensures |r| == |log| + 1 && r[..|log|] == log
    ensures r[|log|].status == Success && r[|log|].syncTime == now && r[|log|].recordsFetched == recordsFetched
  {
    log + [SyncEntry(now, recordsFetched, Success)]
  }

  /** The position of the successful entry with the highest id, if any. */
  function LastSuccess(log: SyncLog): (r: Option<nat>)
    ensures r.None? <==> forall i :: 0 <= i < |log| ==> log[i].status != Success
    ensures r.Some? ==> r.value < |log| && log[r.value].status == Success
    ensures r.Some? ==> forall j :: r.value < j < |log| ==> log[j].status != Success
    decreases |log|
  {
    if log == [] then None
    else if log[|log| - 1].status == Success then Some(|log| - 1)
    else
      var r := LastSuccess(log[..|log| - 1]);
      assert forall i :: 0 <= i < |log| - 1 ==> log[..|log| - 1][i] == log[i];
      r
  }

  /** `get_last_sync_time()`: the time of the successful entry with the
      highest id, or `None` when there is none. */
  function LastSyncTime(log: SyncLog): (r: Option<string>)
    ensures r.None? <==> forall i :: 0 <= i < |log| ==> log[i].status != Success
    ensures r.Some? ==> exists i :: (
      && 0 <= i < |log| && log[i].status == Success && log[i].syncTime == r.value
      && forall j :: i < j < |log| ==> log[j].status != Success)
  {
    match LastSuccess(log)
    case Some(i) => Some(log[i].syncTime)
    case None => None
  }

  /** Right after a sync is logged the watermark is that sync's time, even
      when it fetched nothing. */
  lemma WatermarkAdvances(log: SyncLog, now: string, recordsFetched: int)
    ensures LastSyncTime(LogSync(log, now, recordsFetched)) == Some(now)
  {
  }

  // ---------------------------------------------------------------------------
  // Briefing log: one briefing per report date
  // ---------------------------------------------------------------------------

  /** One `ai_briefings_log` row. */
  datatype Briefing = Briefing(reportDate: string, content: string)

  /** The briefing log in insertion order: a later position is a higher id.
      An overwrite keeps the row where it is. */
  type BriefingLog = seq<Briefing>

  /** The unique constraint on `report_date`. */
  predicate UniqueDates(log: BriefingLog) {
    forall i, j :: 0 <= i < j < |log| ==> log[i].reportDate != log[j].reportDate
  }

  /** The position of the row for `date`, if any. */
  function FindDate(log: BriefingLog, date: string): (r: Option<nat>)
    ensures r.None? <==> forall i :: 0 <= i < |log| ==> log[i].reportDate != date
    ensures r.Some? ==> r.value < |log| && log[r.value].reportDate == date
    ensures r.Some? ==> forall i :: 0 <= i < r.value ==> log[i].reportDate != date
    decreases |log|
  {
    if log == [] then None
    else if log[0].reportDate == date then Some(0)
    else match FindDate(log[1..], date)
      case None => None
      case Some(i) => Some(i + 1)
  }

  /** `log_ai_briefing(content)` on `date`: an upsert on the report date. The
      row for that date is overwritten in place; a new date is appended. */
  function LogBriefing(log: BriefingLog, date: string, content: string): (r: BriefingLog)
    ensures |r| == |log| || (|r| == |log| + 1 && r[|log|] == Briefing(date, content))
    ensures |r| == |log| <==> exists i :: 0 <= i < |log| && log[i].reportDate == date
    ensures forall i :: 0 <= i < |log| ==> r[i].reportDate == log[i].reportDate
    ensures forall i :: 0 <= i < |log| && log[i].reportDate != date ==> r[i] == log[i]
    ensures exists i :: 0 <= i < |r| && r[i] == Briefing(date, content)
    ensures UniqueDates(log) ==> UniqueDates(r)
  {
    match FindDate(log, date)
    case Some(i) =>
      var r := log[i := Briefing(date, content)];
      assert forall k :: 0 <= k < |log| ==> r[k].reportDate == log[k].reportDate;
      r
    case None => log + [Briefing(date, content)]
  }

  /** `get_briefing_by_date(date)`: the content stored for that date, or
      `None`. */
  function BriefingByDate(log: BriefingLog, date: string): (r: Option<string>)
    ensures r.None? <==> forall i :: 0 <= i < |log| ==> log[i].reportDate != date
    ensures r.Some? ==> exists i :: 0 <= i < |log| && log[i] == Briefing(date, r.value)
  {
    match FindDate(log, date)
    case Some(i) => Some(log[i].content)
    case None => None
  }

  /** Regenerating a day's briefing replaces that day's content. */
  lemma BriefingOverwrites(log: BriefingLog, date: string, content: string)
    requires UniqueDates(log)
    ensures BriefingByDate(LogBriefing(log, date, content), date) == Some(content)
  {
    var r := LogBriefing(log, date, content);
    var i :| 0 <= i < |r| && r[i] == Briefing(date, content);
    var k := FindDate(r, date).value;
    assert k == i;
  }

  /** Logging one date leaves every other date's briefing as it was. */
  lemma BriefingOthersUnchanged(log: BriefingLog, date: string, content: string, other: string)
    requires other != date
    ensures BriefingByDate(LogBriefing(log, date, content), other) == BriefingByDate(log, other)
  {
    var r := LogBriefing(log, date, content);
    FindDateInvariant(log, r, date, other);
  }

  /** Two logs that agree on every row not dated `date` find `other` at the
      same place. */
  lemma {:induction false} FindDateInvariant(log: BriefingLog, r: BriefingLog, date: string, other: string)
    requires other != date
    requires |log| <= |r|
    requires forall i :: 0 <= i < |log| && log[i].reportDate != date ==> r[i] == log[i]
    requires forall i :: 0 <= i < |log| && log[i].reportDate == date ==> r[i].reportDate == date
    requires forall i :: |log| <= i < |r| ==> r[i].reportDate == date
    ensures FindDate(r, other) == FindDate(log, other)
    ensures FindDate(r, other).Some? ==> r[FindDate(r, other).value] == log[FindDate(r, other).value]
    decreases |log|
  {
    if log == [] {
      assert forall i :: 0 <= i < |r| ==> r[i].reportDate != other;
    } else {
      FindDateInvariant(log[1..], r[1..], date, other);
    }
  }

  /** `get_latest_ai_briefing()`: the content of the row with the highest
      id, or `None` on an empty log. */
  function LatestBriefing(log: BriefingLog): (r: Option<string>)
    ensures r.None? <==> log == []
    ensures r.Some? ==> r.value == log[|log| - 1].content
  {
    if log == [] then None else Some(log[|log| - 1].content)
  }

  /** A briefing for a new date becomes the latest one. */
  lemma LatestAfterNewDate(log: BriefingLog, date: string, content: string)
    requires forall i :: 0 <= i < |log| ==> log[i].reportDate != date
    ensures LatestBriefing(LogBriefing(log, date, content)) == Some(content)
  {
  }

  /** Overwriting an older date does not make it the latest: the latest
      briefing is the one with the highest id, which an overwrite keeps. */
  lemma LatestAfterOverwrite(log: BriefingLog, date: string, content: string)
    requires |log| >= 2 && log[|log| - 1].reportDate != date
    requires exists i :: 0 <= i < |log| && log[i].reportDate == date
    ensures LatestBriefing(LogBriefing(log, date, content)) == LatestBriefing(log)
  {
  }

  /** After logging, the latest briefing is the new content exactly when the
      date is new or is already the latest row's date; an overwrite of any
      older date leaves the latest briefing as it was. */
  lemma LatestAfterLog(log: BriefingLog, date: string, content: string)
    requires UniqueDates(log)
    ensures LatestBriefing(LogBriefing(log, date, content)) ==
      if (forall i :: 0 <= i < |log| ==> log[i].reportDate != date) || log[|log| - 1].reportDate == date
      then Some(content) else LatestBriefing(log)
  {
    match FindDate(log, date)
    case None =>
    case Some(i) =>
      assert i < |log| - 1 ==> log[i].reportDate != log[|log| - 1].reportDate;
  }

  // ---------------------------------------------------------------------------
  // Briefing dates, newest first
  // ---------------------------------------------------------------------------

  /** Code-point lexicographic order, which for `YYYY-MM-DD` dates is
      chronological order. */
  predicate LexLeq(a: string, b: string)
    decreases |a|
  {
    a == [] || (b != [] && (a[0] < b[0] || (a[0] == b[0] && LexLeq(a[1..], b[1..]))))
  }

  lemma {:induction false} LexLeqTotal(a: string, b: string)
    ensures LexLeq(a, b) || LexLeq(b, a)
    decreases |a|
  {
    if a != [] && b != [] && a[0] == b[0] {
      LexLeqTotal(a[1..], b[1..]);
    }
  }

  lemma {:induction false} LexLeqTrans(a: string, b: string, c: string)
    requires LexLeq(a, b) && LexLeq(b, c)
    ensures LexLeq(a, c)
    decreases |a|
  {
    if a != [] && a[0] == b[0] && b[0] == c[0] {
      LexLeqTrans(a[1..], b[1..], c[1..]);
    }
  }

  /** Newest first. */
  predicate Descending(s: seq<string>) {
    forall i, j :: 0 <= i < j < |s| ==> LexLeq(s[j], s[i])
  }

  /** Places `d` into a descending list. */
  function InsertDescending(d: string, s: seq<string>): (r: seq<string>)
    requires Descending(s)
    ensures Descending(r)
    ensures multiset(r) == multiset(s) + multiset{d}
    decreases |s|
  {
    if s == [] || LexLeq(s[0], d) then
      assert forall j :: 0 < j < |s| + 1 ==> ([d] + s)[j] == s[j - 1];
      InsertBefore(d, s);
      [d] + s
    else
      LexLeqTotal(s[0], d);
      var rest := InsertDescending(d, s[1..]);
      assert s == [s[0]] + s[1..];
      InsertAfter(d, s, rest);
      [s[0]] + rest
  }

  /** `d` at the front of `s` keeps it descending when `d` is at least its
      head. */
  lemma InsertBefore(d: string, s: seq<string>)
    requires Descending(s)
    requires s == [] || LexLeq(s[0], d)
    ensures Descending([d] + s)
  {
    forall j | 0 < j < |s| + 1
      ensures LexLeq(([d] + s)[j], d)
    {
      if j > 1 {
        LexLeqTrans(s[j - 1], s[0], d);
      }
    }
  }

  /** The head of `s` stays in front when `d` is inserted into the rest
      behind it. */
  lemma InsertAfter(d: string, s: seq<string>, rest: seq<string>)
    requires s != [] && Descending(s) && LexLeq(d, s[0])
    requires Descending(rest) && multiset(rest) == multiset(s[1..]) + multiset{d}
    ensures Descending([s[0]] + rest)
  {
    forall j | 0 < j < |rest| + 1
      ensures LexLeq(([s[0]] + rest)[j], s[0])
    {
      var x := rest[j - 1];
      assert x in multiset(rest);
      if x != d {
        assert x in multiset(s[1..]);
        var k :| 0 <= k < |s[1..]| && s[1..][k] == x;
        assert s[k + 1] == x;
      }
    }
  }

  /** Insertion sort, newest first. */
  function SortDescending(s: seq<string>): (r: seq<string>)
    ensures Descending(r)
    ensures multiset(r) == multiset(s)
    decreases |s|
  {
    if s == [] then []
    else
      assert s == [s[0]] + s[1..];
      InsertDescending(s[0], SortDescending(s[1..]))
  }

  function DatesOf(log: BriefingLog): (r: seq<string>)
    ensures |r| == |log| && forall i :: 0 <= i < |log| ==> r[i] == log[i].reportDate
  {
    seq(|log|, i requires 0 <= i < |log| => log[i].reportDate)
  }

  /** `get_all_briefing_dates()`: every report date, newest first. */
  function AllBriefingDates(log: BriefingLog): (r: seq<string>)
    ensures Descending(r)
    ensures multiset(r) == multiset(DatesOf(log))
  {
    SortDescending(DatesOf(log))
  }
}

=== FILE: text.dfy ===
/** Python string primitives the report splitter relies on, over `string`
    (a sequence of Unicode code points, as a Python `str` is):
    `str.strip()`, left-to-right deletion of literal substrings (`str.replace`
    with an empty replacement, and `re.sub` of an alternation of literals), and
    the case-insensitive search for a tag that `re.IGNORECASE` performs. */
module Text {
  import opened Wrappers

  // ---------------------------------------------------------------------------
  // Whitespace and strip()
  // ---------------------------------------------------------------------------

  /** The characters for which Python's `str.isspace()` holds. Both
      `str.strip()` and the `\s` class of a `str` pattern use this set. */
  predicate IsSpace(c: char) {
    || ('\t' <= c <= '\r')
    || ('\U{1C}' <= c <= ' ')
    || c == '\U{85}' || c == '\U{A0}' || c == '\U{1680}'
    || ('\U{2000}' <= c <= '\U{200A}')
    || c == '\U{2028}' || c == '\U{2029}' || c == '\U{202F}'
    || c == '\U{205F}' || c == '\U{3000}'
  }

  predicate AllSpace(s: string) {
    forall k :: 0 <= k < |s| ==> IsSpace(s[k])
  }

  /** `s[i..j]` is what remains of `s` once the whitespace runs at both ends
      are removed: everything outside it is whitespace and, unless it is
      empty, it starts and ends with a non-whitespace character. */
  predicate StripsTo(s: string, i: int, j: int) {
    && 0 <= i <= j <= |s|
    && (forall k :: 0 <= k < i ==> IsSpace(s[k]))
    && (forall k :: j <= k < |s| ==> IsSpace(s[k]))
    && (i < j ==> !IsSpace(s[i]) && !IsSpace(s[j - 1]))
  }

  /** The end of the whitespace run of `s` that starts at `i`. */
  function SkipSpace(s: string, i: nat): (r: nat)
    requires i <= |s|
    ensures i <= r <= |s|
    ensures forall k :: i <= k < r ==> IsSpace(s[k])
    ensures r < |s| ==> !IsSpace(s[r])
    decreases |s| - i
  {
    if i < |s| && IsSpace(s[i]) then SkipSpace(s, i + 1) else i
  }

  /** The start of the whitespace run of `s[lo..j]` that ends at `j`. */
  function SkipSpaceBack(s: string, lo: nat, j: nat): (r: nat)
    requires lo <= j <= |s|
    ensures lo <= r <= j
    ensures forall k :: r <= k < j ==> IsSpace(s[k])
    ensures lo < r ==> !IsSpace(s[r - 1])
    decreases j
  {
    if lo < j && IsSpace(s[j - 1]) then SkipSpaceBack(s, lo, j - 1) else j
  }

  /** `str.strip()`: the slice of `s` between its leading and its trailing
      whitespace runs. */
  function Strip(s: string): (r: string)
    ensures exists i, j :: StripsTo(s, i, j) && r == s[i..j]
    ensures r == [] || (!IsSpace(r[0]) && !IsSpace(r[|r| - 1]))
  {
    var i := SkipSpace(s, 0);
    var j := SkipSpaceBack(s, i, |s|);
    assert StripsTo(s, i, j);
    s[i..j]
  }

  /** The borders `Strip` cuts `s` at. */
  lemma StripBorders(s: string) returns (i: int, j: int)
    ensures StripsTo(s, i, j) && Strip(s) == s[i..j]
  {
    var r := Strip(s);
    i, j :| StripsTo(s, i, j) && r == s[i..j];
  }

  /** The decomposition in `StripsTo` determines the stripped text: whichever
      split a caller exhibits, `Strip` returns that middle part. */
  lemma StripUnique(s: string, i: int, j: int)
    requires StripsTo(s, i, j)
    ensures Strip(s) == s[i..j]
  {
    var i', j' := StripBorders(s);
    if i < j && i' < j' {
      // the first and last non-space characters pin both borders down
      assert i == i' && j == j';
    }
  }

  /** Whitespace between the borders of a slice and an inner slice does not
      change what the slice strips to. */
  lemma StripInner(s: string, lo: int, g0: int, g1: int, hi: int)
    requires 0 <= lo <= g0 <= g1 <= hi <= |s|
    requires forall k :: lo <= k < g0 ==> IsSpace(s[k])
    requires forall k :: g1 <= k < hi ==> IsSpace(s[k])
    ensures Strip(s[lo..hi]) == Strip(s[g0..g1])
  {
    var i, j := StripBorders(s[g0..g1]);
    StripsToInner(s, lo, g0, g1, hi, i, j);
    SliceOfSlice(s, g0, g1, i, j);
  }

  /** `StripInner` with the inner borders named. */
  lemma StripInnerAt(s: string, lo: int, g0: int, g1: int, hi: int, i: int, j: int)
    requires 0 <= lo <= g0 <= g1 <= hi <= |s|
    requires StripsTo(s[lo..hi], g0 - lo + i, g0 - lo + j)
    requires 0 <= i <= j <= g1 - g0
    ensures Strip(s[lo..hi]) == s[g0 + i..g0 + j]
  {
    StripUnique(s[lo..hi], g0 - lo + i, g0 - lo + j);
    SliceOfSlice(s, lo, hi, g0 - lo + i, g0 - lo + j);
  }

  /** The strip borders of an inner slice, shifted, are those of the outer
      slice when only whitespace lies between them. */
  lemma StripsToInner(s: string, lo: int, g0: int, g1: int, hi: int, i: int, j: int)
    requires 0 <= lo <= g0 <= g1 <= hi <= |s|
    requires forall k :: lo <= k < g0 ==> IsSpace(s[k])
    requires forall k :: g1 <= k < hi ==> IsSpace(s[k])
    requires StripsTo(s[g0..g1], i, j)
    ensures StripsTo(s[lo..hi], g0 - lo + i, g0 - lo + j)
    ensures Strip(s[lo..hi]) == s[g0 + i..g0 + j]
  {
    var g := s[g0..g1];
    var t := s[lo..hi];
    var d := g0 - lo;
    forall k | 0 <= k < d + i ensures IsSpace(t[k]) {
      assert t[k] == s[lo + k];
      if k >= d { assert t[k] == g[k - d]; }
    }
    forall k | d + j <= k < |t| ensures IsSpace(t[k]) {
      assert t[k] == s[lo + k];
      if k < d + |g| { assert t[k] == g[k - d]; }
    }
    if i < j {
      assert t[d + i] == g[i] && t[d + j - 1] == g[j - 1];
    }
    StripInnerAt(s, lo, g0, g1, hi, i, j);
  }

  lemma SliceOfSlice(s: string, lo: int, hi: int, a: int, b: int)
    requires 0 <= lo <= hi <= |s| && 0 <= a <= b <= hi - lo
    ensures s[lo..hi][a..b] == s[lo + a..lo + b]
  {
    forall k | 0 <= k < b - a ensures s[lo..hi][a..b][k] == s[lo + a..lo + b][k] {
      assert s[lo..hi][a + k] == s[lo + a + k];
    }
  }

  /** `strip()` is idempotent. */
  lemma StripIdempotent(s: string)
    ensures Strip(Strip(s)) == Strip(s)
  {
    var i, j := StripBorders(s);
    var r := s[i..j];
    assert StripsTo(r, 0, |r|) by {
      if 0 < |r| {
        assert r[0] == s[i] && r[|r| - 1] == s[j - 1];
      }
    }
    StripUnique(r, 0, |r|);
  }

  // ---------------------------------------------------------------------------
  // Exact, case-sensitive occurrences and their deletion
  // ---------------------------------------------------------------------------

  /** The non-empty literal `p` starts `s`. */
  predicate PrefixAt(s: string, p: string) {
    p != [] && |p| <= |s| && s[..|p|] == p
  }

  /** No literal of `pats` occurs anywhere in `s`. */
  predicate NoOccurrence(s: string, pats: seq<string>) {
    forall i, k :: 0 <= i < |s| && 0 <= k < |pats| ==> !PrefixAt(s[i..], pats[k])
  }

  /** The length of the first literal of `pats`, in list order, that starts
      `s`, or 0 when none does; list order is the order in which a
      regular-expression alternation tries its branches. */
  function MatchedLength(s: string, pats: seq<string>): (n: nat)
    ensures n <= |s|
  {
    if pats == [] then 0
    else if PrefixAt(s, pats[0]) then |pats[0]|
    else MatchedLength(s, pats[1..])
  }

  /** `MatchedLength` spelled out: 0 exactly when no literal starts `s`, and
      otherwise the length of the first one that does. */
  lemma {:induction false} MatchedLengthMeaning(s: string, pats: seq<string>)
    ensures MatchedLength(s, pats) == 0 <==> forall k :: 0 <= k < |pats| ==> !PrefixAt(s, pats[k])
    ensures MatchedLength(s, pats) > 0 ==>
      exists k :: 0 <= k < |pats| && PrefixAt(s, pats[k]) && MatchedLength(s, pats) == |pats[k]|
        && forall k' :: 0 <= k' < k ==> !PrefixAt(s, pats[k'])
  {
    if pats != [] && !PrefixAt(s, pats[0]) {
      MatchedLengthMeaning(s, pats[1..]);
      if MatchedLength(s, pats) > 0 {
        var k :| 0 <= k < |pats[1..]| && PrefixAt(s, pats[1..][k]) && MatchedLength(s, pats[1..]) == |pats[1..][k]|
          && forall k' :: 0 <= k' < k ==> !PrefixAt(s, pats[1..][k']);
        assert PrefixAt(s, pats[k + 1]);
      }
    }
  }

  /** `r` arises from `s` by deleting some occurrences of literals of `pats`
      and keeping every other character, in order. */
  ghost predicate ObtainedByDeleting(s: string, r: string, pats: seq<string>)
    decreases |s|
  {
    if s == [] then r == []
    else
      || (exists k :: 0 <= k < |pats| && PrefixAt(s, pats[k]) && ObtainedByDeleting(s[|pats[k]|..], r, pats))
      || (r != [] && r[0] == s[0] && ObtainedByDeleting(s[1..], r[1..], pats))
  }

  /** A single left-to-right scan that drops every occurrence of a literal of
      `pats` and resumes after it, as `str.replace(p, '')` does for one
      literal and `re.sub(a|b|..., '', s)` does for an alternation of
      literals. Text spliced together by a deletion is not looked at again. */
  function DeleteAll(s: string, pats: seq<string>): (r: string)
    ensures |r| <= |s|
    decreases |s|
  {
    if s == [] then []
    else
      var n := MatchedLength(s, pats);
      if n > 0 then DeleteAll(s[n..], pats) else [s[0]] + DeleteAll(s[1..], pats)
  }

  /** One step of the scan: a character no literal starts at is kept. */
  lemma DeleteAllKeeps(s: string, pats: seq<string>)
    requires s != [] && MatchedLength(s, pats) == 0
    ensures DeleteAll(s, pats) == [s[0]] + DeleteAll(s[1..], pats)
  {
  }

  /** One step of the scan: an occurrence of a literal is dropped. */
  lemma DeleteAllDrops(s: string, pats: seq<string>)
    requires MatchedLength(s, pats) > 0
    ensures DeleteAll(s, pats) == DeleteAll(s[MatchedLength(s, pats)..], pats)
  {
  }

  /** Only occurrences of the literals are removed: every other character of
      `s` survives, in order. */
  lemma {:induction false} DeleteAllOnlyDeletes(s: string, pats: seq<string>)
    ensures ObtainedByDeleting(s, DeleteAll(s, pats), pats)
    decreases |s|
  {
    if s != [] {
      var n := MatchedLength(s, pats);
      MatchedLengthMeaning(s, pats);
      if n > 0 {
        DeleteAllDrops(s, pats);
        DeleteAllOnlyDeletes(s[n..], pats);
        var k :| 0 <= k < |pats| && PrefixAt(s, pats[k]) && n == |pats[k]|
          && forall k' :: 0 <= k' < k ==> !PrefixAt(s, pats[k']);
        assert ObtainedByDeleting(s[|pats[k]|..], DeleteAll(s, pats), pats);
      } else {
        DeleteAllKeeps(s, pats);
        var rest := DeleteAll(s[1..], pats);
        DeleteAllOnlyDeletes(s[1..], pats);
        assert ([s[0]] + rest)[1..] == rest;
      }
    }
  }

  /** An occurrence of a literal makes the result strictly shorter. */
  lemma {:induction false} DeleteAllShrinks(s: string, pats: seq<string>, i: nat, k: nat)
    requires i < |s| && k < |pats| && PrefixAt(s[i..], pats[k])
    ensures |DeleteAll(s, pats)| < |s|
    decreases |s|
  {
    MatchedLengthMeaning(s, pats);
    if MatchedLength(s, pats) > 0 {
      DeleteAllDrops(s, pats);
    } else {
      DeleteAllKeeps(s, pats);
      assert s[0..] == s;
      assert i != 0;
      assert s[1..][i - 1..] == s[i..];
      DeleteAllShrinks(s[1..], pats, i - 1, k);
    }
  }

  /** The deletion changes nothing exactly when there is nothing to delete. */
  lemma {:induction false} DeleteAllIdentity(s: string, pats: seq<string>)
    ensures DeleteAll(s, pats) == s <==> NoOccurrence(s, pats)
    decreases |s|
  {
    if !NoOccurrence(s, pats) {
      var i, k :| 0 <= i < |s| && 0 <= k < |pats| && PrefixAt(s[i..], pats[k]);
      DeleteAllShrinks(s, pats, i, k);
    } else if s != [] {
      assert s[0..] == s;
      MatchedLengthMeaning(s, pats);
      DeleteAllKeeps(s, pats);
      assert NoOccurrence(s[1..], pats) by {
        forall i, k | 0 <= i < |s[1..]| && 0 <= k < |pats|
          ensures !PrefixAt(s[1..][i..], pats[k])
        {
          assert s[1..][i..] == s[i + 1..];
        }
      }
      DeleteAllIdentity(s[1..], pats);
      assert [s[0]] + s[1..] == s;
    }
  }

  /** No literal of `pats` starts at any index of `s` below `i`. */
  predicate KeptBefore(s: string, pats: seq<string>, i: nat)
    requires i <= |s|
  {
    forall j :: 0 <= j < i ==> MatchedLength(s[j..], pats) == 0
  }

  /** Left-to-right, non-overlapping: everything before the leftmost
      occurrence is kept verbatim, that occurrence (of the first alternative
      that matches there) is dropped, and the scan resumes right after it. */
  lemma DeleteAllAtLeftmost(s: string, pats: seq<string>, i: nat)
    requires i <= |s| && KeptBefore(s, pats, i)
    requires MatchedLength(s[i..], pats) > 0
    ensures DeleteAll(s, pats) == s[..i] + DeleteAll(s[i + MatchedLength(s[i..], pats)..], pats)
  {
    DeleteAllAtLeftmostBy(s, pats, i, MatchedLength(s[i..], pats));
  }

  /** `DeleteAllAtLeftmost` with the length of the occurrence named. */
  lemma {:induction false} DeleteAllAtLeftmostBy(s: string, pats: seq<string>, i: nat, n: nat)
    requires i <= |s| && KeptBefore(s, pats, i)
    requires n == MatchedLength(s[i..], pats) > 0
    ensures i + n <= |s|
    ensures DeleteAll(s, pats) == s[..i] + DeleteAll(s[i + n..], pats)
    decreases i
  {
    if i == 0 {
      LeftmostAtStart(s, pats);
    } else {
      KeptBeforeTail(s, pats, i);
      DeleteAllAtLeftmostBy(s[1..], pats, i - 1, n);
      LeftmostStep(s, pats, i, n);
    }
  }

  /** The base case of `DeleteAllAtLeftmost`: an occurrence at the start. */
  lemma LeftmostAtStart(s: string, pats: seq<string>)
    requires MatchedLength(s[0..], pats) > 0
    ensures DeleteAll(s, pats) == s[..0] + DeleteAll(s[MatchedLength(s[0..], pats)..], pats)
  {
    assert s[0..] == s;
    DeleteAllDrops(s, pats);
    var rest := DeleteAll(s[MatchedLength(s, pats)..], pats);
    assert s[..0] + rest == rest;
  }

  /** A text with one deletable occurrence, kept text before it and nothing
      deletable after it loses exactly that occurrence. */
  lemma DeleteAllSplice(a: string, p: string, b: string, pats: seq<string>)
    requires KeptBefore(a + p + b, pats, |a|)
    requires MatchedLength((a + p + b)[|a|..], pats) == |p| > 0
    requires NoOccurrence(b, pats)
    ensures DeleteAll(a + p + b, pats) == a + b
  {
    var s := a + p + b;
    DeleteAllAtLeftmost(s, pats, |a|);
    assert s[..|a|] == a && s[|a| + |p|..] == b;
    DeleteAllIdentity(b, pats);
  }

  /** Dropping a kept first character keeps the rest of the kept prefix. */
  lemma KeptBeforeTail(s: string, pats: seq<string>, i: nat)
    requires 0 < i <= |s| && KeptBefore(s, pats, i)
    ensures KeptBefore(s[1..], pats, i - 1) && s[1..][i - 1..] == s[i..]
    ensures MatchedLength(s, pats) == 0
  {
    var t := s[1..];
    forall j | 0 <= j < i - 1
      ensures MatchedLength(t[j..], pats) == 0
    {
      assert t[j..] == s[j + 1..];
    }
    assert s[0..] == s;
  }

  /** The inductive step of `DeleteAllAtLeftmost`: a kept first character
      joins the kept prefix of the rest. */
  lemma LeftmostStep(s: string, pats: seq<string>, i: nat, n: nat)
    requires 0 < i && i + n <= |s|
    requires MatchedLength(s, pats) == 0
    requires DeleteAll(s[1..], pats) == s[1..][..i - 1] + DeleteAll(s[1..][i - 1 + n..], pats)
    ensures DeleteAll(s, pats) == s[..i] + DeleteAll(s[i + n..], pats)
  {
    assert s[1..][i - 1 + n..] == s[i + n..];
    DeleteAllKeeps(s, pats);
    ConsPrefix(s, i, DeleteAll(s[i + n..], pats));
  }

  lemma ConsPrefix(s: string, i: nat, rest: string)
    requires 0 < i <= |s|
    ensures [s[0]] + (s[1..][..i - 1] + rest) == s[..i] + rest
  {
    assert [s[0]] + s[1..][..i - 1] == s[..i];
  }

  // ---------------------------------------------------------------------------
  // Case-insensitive search for a tag
  // ---------------------------------------------------------------------------

  /** Character `c` of the text matches character `t` of a tag under
      `re.IGNORECASE`. Tags are spelled with upper-case ASCII letters, `<`,
      `/`, `_` and `>`: a letter also matches its lower-case form, and Python
      folds U+017F LATIN SMALL LETTER LONG S together with `s`/`S`; the
      punctuation has no case variants. */
  predicate FoldsTo(c: char, t: char) {
    || c == t
    || ('A' <= t <= 'Z' && c as int == t as int + 32)
    || (t == 'S' && c == '\U{017F}')
  }

  /** `tag` matches `s` at index `i`, ignoring case. */
  predicate MatchesTagAt(s: string, tag: string, i: int) {
    0 <= i && i + |tag| <= |s| && forall k :: 0 <= k < |tag| ==> FoldsTo(s[i + k], tag[k])
  }

  /** The leftmost index at or after `from` where `tag` matches, ignoring
      case, or `None` when there is none. */
  function FindTag(s: string, tag: string, from: nat): (r: Option<nat>)
    ensures r.Some? ==> from <= r.value && MatchesTagAt(s, tag, r.value)
    ensures r.Some? ==> forall i :: from <= i < r.value ==> !MatchesTagAt(s, tag, i)
    ensures r.None? ==> forall i :: from <= i ==> !MatchesTagAt(s, tag, i)
    decreases |s| - from
  {
    if |s| < from + |tag| then None
    else if MatchesTagAt(s, tag, from) then Some(from)
    else FindTag(s, tag, from + 1)
  }
}

=== FILE: wrappers.dfy ===
/** `Option` stands for Python's `None`-or-value returns, `Result` for an
    operation that can raise; `Result` carries the members `:-` needs. */
module Wrappers {

  datatype Option<+T> = None | Some(value: T)

  datatype Result<+T, +E> = Ok(value: T) | Err(error: E) {

    predicate IsFailure() {
      Err?
    }

    function PropagateFailure<U>(): Result<U, E>
      requires Err?
    {
      Err(error)
    }

    function Extract(): T
      requires Ok?
    {
      value
    }
  }
}
